=== FILE: README.md ===
# Smart traffic signals: a Dafny model

This project models the decision logic of a smart traffic-signal repository with two
controllers, a small traffic simulator and a few timing helpers.

- **Adaptive controller** (`TrafficSignalController`, module `AdaptiveController`). One
  side of a configured sequence is GREEN at a time. Each update reads per-side vehicle
  counts and applies these rules in order:
  1. emergency preemption;
  2. a minimum-green floor;
  3. a maximum-green ceiling;
  4. early clearance after low traffic has lasted a wait time.

  A standard switch advances cyclically through the sequence. The new side goes GREEN,
  the previous side YELLOW and the rest RED. Manual override is a separate forced switch.
- **Fixed-timer controller** (`SignalController`, module `FixedController`). It runs
  GREEN, then YELLOW, then hands over to the next side of NORTH, SOUTH, EAST, WEST.
- **Vehicles** (module `Vehicles`). Queue placement, integer pixel motion, the
  once-only turn, the crossed flags, the stop decision and licence plates.
- **Traffic generator** (module `TrafficGenerator`). Capacity-bounded spawning with a
  weighted type choice.
- **Intersection** (module `Intersections`). Four queues, spawning at the back, a move
  pass in which each vehicle sees the vehicles before it, and removal of crossed vehicles
  with per-type statistics.
- **Detector tally** (module `VehicleDetector`). The per-box loop of the camera-based
  detector. The object detector's output is given as a sequence of (class id,
  confidence) boxes.
- **Demo engine** (module `Engine`) and **helpers** (module `Utils`). The clamped
  weighted duration, the simulated camera ranges, the green-time formula and the
  weighted traffic density.

The clock is an explicit integer `now`. Every read of the clock inside one call is the
same instant. Every random draw is an input (module `Draws`): an integer draw for
`randint`/`choice`, and a real in [0, 1) for `random()` and `choices`. Side names are the
closed type `Sides.Side`. Strings stay strings wherever the program accepts arbitrary
names:
- the keys of the counts dictionary;
- the override target;
- the signal queries.

Each `*_properties.dfy` module (and the second module of `vehicle_detector.dfy`,
`engine.dfy` and `utils.dfy`) holds the lemmas about its operation module.

## Model

| member | source | states |
|---|---|---|
| Sides.Parse | smart_traffic_system/config.py:62 | a parsed name is exactly a side's name; an unparsed one is no side's name |
| Sides.ParseName | smart_traffic_system/config.py:62 | parsing a side's name gives that side back (round trip) |
| Sides.NextIndex | smart_traffic_system/controllers/traffic_controller.py:171 | the successor index stays in [0, n) and wraps from the last position to 0 |
| Draws.RandInt | frontened/engine.py:19-21 | an inclusive `randint` draw lies in [lo, hi] |
| Draws.RandIntCovers | frontened/engine.py:19-21 | every value of [lo, hi] is reachable by some draw |
| Draws.Choice | frontened/engine.py:22 | `random.choice` returns an element of the list |
| Draws.WeightedIndex | smart_traffic/traffic_simulation/traffic_generator.py:31-38 | `random.choices` picks the first index whose cumulative weight exceeds u times the total |
| AdaptiveController.Init | smart_traffic_system/controllers/traffic_controller.py:34-65 | construction keeps the given configuration and makes the first side of its sequence GREEN and the rest RED, with the green timer at `now` and a held duration of 0, no low-traffic timer, no cycles or history, the full maximum green remaining, and establishes the safety invariant |
| AdaptiveController.Lookup | smart_traffic_system/controllers/traffic_controller.py:91 | dictionary `get` returns the payload of the first item with the key, and nothing exactly when no item has it |
| AdaptiveController.VehicleCount | smart_traffic_system/controllers/traffic_controller.py:91-97 | count extraction: a missing side gives 0, a bare integer is used as is, a record gives its `total_vehicles` or 0 |
| AdaptiveController.FindEmergency | smart_traffic_system/controllers/traffic_controller.py:225-238 | the emergency side is the key of the first item whose payload is a record with `emergency` true; nothing iff no such item |
| AdaptiveController.EmergencyTarget | smart_traffic_system/controllers/traffic_controller.py:100-103 | an emergency is acted on iff detection is enabled and the found key is non-empty (string truthiness) |
| AdaptiveController.IndexOf | smart_traffic_system/controllers/traffic_controller.py:262 | `list.index` gives the first position holding the side |
| AdaptiveController.ShouldSwitch | smart_traffic_system/controllers/traffic_controller.py:120-154 | no switch below the minimum; a switch at the maximum; between them, heavy traffic resets the low-traffic timer and low traffic starts it and switches once it has run the wait time |
| AdaptiveController.SwitchReason | smart_traffic_system/controllers/traffic_controller.py:216-223 | "Maximum time reached" iff the held time reached the maximum; otherwise early clearance iff the low-traffic timer runs, else "Standard switch" |
| AdaptiveController.SwitchStates | smart_traffic_system/controllers/traffic_controller.py:166-181 | after a standard switch exactly the new side of the sequence is GREEN, the previous side YELLOW, every other side RED |
| AdaptiveController.ForcedStates | smart_traffic_system/controllers/traffic_controller.py:264-269 | after a forced switch exactly the target is GREEN and every other side of the sequence RED |
| AdaptiveController.SwitchToNext | smart_traffic_system/controllers/traffic_controller.py:156-214 | standard switch: index advances mod n, lamps as above, green start and low-traffic timer reset while the held duration keeps the previous side's value until the next update, a cycle counted iff the new side is the first of the sequence, one history entry appended |
| AdaptiveController.ForceGreen | smart_traffic_system/controllers/traffic_controller.py:322-331 | forced switch: the target becomes the active side at its sequence index, GREEN alone, green timer reset, nothing else changes |
| AdaptiveController.HandleEmergency | smart_traffic_system/controllers/traffic_controller.py:240-281 | emergency on the active side: no change; elsewhere: that side GREEN, others RED, green start reset, held duration kept, emergency mode on, cycles and history unchanged; an unknown side is the `list.index` error |
| AdaptiveController.TimeRemaining | smart_traffic_system/controllers/traffic_controller.py:291-293 | remaining green time is never negative, is 0 iff the maximum is reached, and otherwise adds up with the held time to the maximum |
| AdaptiveController.ManualOverride | smart_traffic_system/controllers/traffic_controller.py:305-333 | true iff the target is in the sequence; an unknown or the active side changes nothing; otherwise a forced switch to the target |
| AdaptiveController.GetStatistics | smart_traffic_system/controllers/traffic_controller.py:295-303 | the statistics report the number of changes and the last at most ten changes, which form a suffix of the history |
| AdaptiveController.Tick | smart_traffic_system/controllers/traffic_controller.py:104-118 | no switch before the minimum green; a switch once the maximum is reached; a switch logs exactly one change carrying the held duration; continuing keeps side, index, lamps, cycles and history and reports a non-negative time remaining |
| AdaptiveController.Update | smart_traffic_system/controllers/traffic_controller.py:77-118 | an update fails only on an emergency reported for a side outside the sequence; without an emergency it switches or continues, with one it holds or jumps; the configuration is kept and the cycle count never falls; the history grows only by a logged standard switch, whose duration is the refreshed green time and at least the minimum |
| AdaptiveProperties.OnlyCurrentIsGreen | smart_traffic_system/controllers/traffic_controller.py:36-42 | under the invariant the set of GREEN sides is exactly the active side |
| AdaptiveProperties.UpdatePreservesInv | smart_traffic_system/controllers/traffic_controller.py:77-118 | every successful update keeps the safety invariant |
| AdaptiveProperties.ManualOverridePreservesInv | smart_traffic_system/controllers/traffic_controller.py:305-333 | manual override keeps the safety invariant |
| AdaptiveProperties.UpdateFailsOnlyOnUnknownEmergencySide | smart_traffic_system/controllers/traffic_controller.py:99-103 | under the invariant an update fails iff an acted-on emergency names no side of the sequence |
| AdaptiveProperties.MinGreenFloor | smart_traffic_system/controllers/traffic_controller.py:130-132 | without an emergency and below the minimum, the update only refreshes the held time, whatever the count |
| AdaptiveProperties.MaxGreenCeiling | smart_traffic_system/controllers/traffic_controller.py:134-137 | without an emergency, at the minimum and the maximum, the update switches to the next side for "Maximum time reached" |
| AdaptiveProperties.EarlyClearanceOnLowTraffic | smart_traffic_system/controllers/traffic_controller.py:139-149 | low traffic between the bounds starts the timer if stopped and switches, for early clearance, iff it has run the wait time |
| AdaptiveProperties.HeavyTrafficResetsTimer | smart_traffic_system/controllers/traffic_controller.py:150-152 | heavy traffic between the bounds stops the timer and never switches |
| AdaptiveProperties.UpdateSwitchReason | smart_traffic_system/controllers/traffic_controller.py:216-223 | a switch made by an update is for the maximum iff the maximum was reached, and never a "Standard switch" |
| AdaptiveProperties.EmergencyPreemption | smart_traffic_system/controllers/traffic_controller.py:240-281 | an acted-on emergency is handled before the timing rules: hold on the active side, otherwise an invariant-keeping jump to it with cycles and history unchanged |
| AdaptiveProperties.SwitchPreservesInv | smart_traffic_system/controllers/traffic_controller.py:171-181 | a standard switch keeps the safety invariant |
| AdaptiveProperties.StandardSwitchEffect | smart_traffic_system/controllers/traffic_controller.py:163-204 | a standard switch under the invariant: next index, only the new side GREEN, the previous YELLOW, the rest RED, timers reset, cycle count and history as the program updates them |
| AdaptiveProperties.SwitchesPreserveInv | smart_traffic_system/controllers/traffic_controller.py:171-181 | any number of standard switches keeps the invariant |
| AdaptiveProperties.SwitchesWithinRound | smart_traffic_system/controllers/traffic_controller.py:170-172 | for j at most the sequence length, j standard switches advance the index by j, wrapping once past the end |
| AdaptiveProperties.WalkArith | smart_traffic_system/controllers/traffic_controller.py:170-172 | stepping j times around a ring of n with wrap-around reaches (i + j) mod n after (i + j) div n wraps |
| AdaptiveProperties.SwitchesWalk | smart_traffic_system/controllers/traffic_controller.py:170-172 | j standard switches step the index j times around the sequence |
| AdaptiveProperties.SwitchesWraps | smart_traffic_system/controllers/traffic_controller.py:170-189 | when the first side occurs once, j standard switches count one cycle per wrap of the index |
| AdaptiveProperties.SwitchesAdvanceIndex | smart_traffic_system/controllers/traffic_controller.py:170-172 | for every j, j standard switches from index i reach index (i + j) mod n |
| AdaptiveProperties.SwitchesAdvanceCycles | smart_traffic_system/controllers/traffic_controller.py:170-189 | for every j, when the first side occurs once, j standard switches from index i add (i + j) div n to the cycle count |
| AdaptiveProperties.CyclesWithinRound | smart_traffic_system/controllers/traffic_controller.py:187-189 | within one round the cycle count grows by one iff the round passes the first side of the sequence |
| AdaptiveProperties.CycleStep | smart_traffic_system/controllers/traffic_controller.py:187-189 | one standard switch counts a cycle iff it lands on index 0 |
| AdaptiveProperties.FullRound | smart_traffic_system/controllers/traffic_controller.py:170-189 | a full round of switches over a repeat-free sequence returns to the same side and index and counts exactly one cycle |
| AdaptiveProperties.ScenarioEarlyClearance | smart_traffic_system/controllers/traffic_controller.py:139-152 | with the configured values, two cars on NORTH start the timer at 12 and switch to EAST for early clearance at 17 |
| AdaptiveProperties.ScenarioMaxTime | smart_traffic_system/controllers/traffic_controller.py:134-137 | with the configured values, NORTH hands over to EAST at 30 for the maximum time |
| AdaptiveProperties.ScenarioEmergency | smart_traffic_system/controllers/traffic_controller.py:259-269 | an emergency reported for SOUTH moves GREEN from NORTH to SOUTH at once |
| FixedController.Init | smart_traffic/traffic_signal/signal_controller.py:16-36 | NORTH at index 0 is GREEN, the other three RED, with the configured durations |
| FixedController.Update | smart_traffic/traffic_signal/signal_controller.py:38-63 | GREEN past its duration turns YELLOW; YELLOW past its duration turns RED and the next side GREEN; otherwise nothing changes |
| FixedController.GetSignalState | smart_traffic/traffic_signal/signal_controller.py:65-75 | the stored lamp of the named side, RED for an unknown name |
| FixedController.IsGreen | smart_traffic/traffic_signal/signal_controller.py:77-79 | true iff the named side has a stored GREEN lamp |
| FixedController.IsRed | smart_traffic/traffic_signal/signal_controller.py:81-83 | true iff the named side has a stored RED lamp |
| FixedController.RemainingTime | smart_traffic/traffic_signal/signal_controller.py:85-95 | never negative; positive iff the phase has time left, and then it completes the elapsed time to the phase's duration; 0 on RED |
| FixedProperties.InitEstablishesInv | smart_traffic/traffic_signal/signal_controller.py:16-31 | construction establishes the invariant that only the active side is not RED |
| FixedProperties.OnlyCurrentNotRed | smart_traffic/traffic_signal/signal_controller.py:46-63 | under the invariant the set of non-RED sides is exactly the active side |
| FixedProperties.UpdatePreservesInv | smart_traffic/traffic_signal/signal_controller.py:38-63 | every tick keeps the invariant |
| FixedProperties.HandOverFollowsOrder | smart_traffic/traffic_signal/signal_controller.py:54-63 | an expired YELLOW hands GREEN to the successor in NORTH, SOUTH, EAST, WEST order |
| FixedProperties.PhaseCycle | smart_traffic/traffic_signal/signal_controller.py:48-63 | GREEN then YELLOW then the successor GREEN with every other side RED, each change restarting the timer |
| FixedProperties.OrderIsOneCycle | smart_traffic/traffic_signal/signal_controller.py:18 | four hand-overs return to the start and visit every side |
| FixedProperties.QueriesAgreeWithState | smart_traffic/traffic_signal/signal_controller.py:75-83 | `is_green` and `is_red` agree with `get_signal_state`; YELLOW is neither |
| FixedProperties.UnknownNameQueries | smart_traffic/traffic_signal/signal_controller.py:75-83 | for a name that is no side, `get_signal_state` says RED while `is_red` and `is_green` are both false |
| FixedProperties.RemainingTimeBounds | smart_traffic/traffic_signal/signal_controller.py:85-95 | with a non-negative elapsed time the remaining time lies in [0, duration of the phase] |
| FixedProperties.ScenarioFirstHandOver | smart_traffic/traffic_signal/signal_controller.py:38-63 | from construction, nothing changes at 9, NORTH is YELLOW at 10 and SOUTH is GREEN at 13 |
| Vehicles.ChooseTurn | smart_traffic/traffic_simulation/vehicle.py:56 | a choice from [0, 0, 0, 1, 2]: straight for three of five draws, left for one, right for one |
| Vehicles.Place | smart_traffic/traffic_simulation/vehicle.py:63-83 | queue position p sits 300 + 60p from the centre on its approach axis, 80 to the side |
| Vehicles.NewVehicle | smart_traffic/traffic_simulation/vehicle.py:31-61 | a new vehicle is on its spawn side at its position and place, with no flag set |
| Vehicles.Replace | smart_traffic/traffic_simulation/vehicle.py:85-87 | re-placing for a window changes only the coordinates |
| Vehicles.Steer | smart_traffic/traffic_simulation/vehicle.py:98-101 | the turn is taken the first time the vehicle is at the centre, latched by the turning flag |
| Vehicles.Advance | smart_traffic/traffic_simulation/vehicle.py:103-111 | one move shifts by the speed along the current side's axis |
| Vehicles.DistanceTo | smart_traffic/traffic_simulation/vehicle.py:237-247 | the distance is the offset to the other vehicle projected onto the travel direction of the vehicle's original side |
| Vehicles.MarkLines | smart_traffic/traffic_simulation/vehicle.py:159-191 | the crossed and signal-line flags are set by their tests and never cleared |
| Vehicles.Move | smart_traffic/traffic_simulation/vehicle.py:89-117 | a crossed vehicle does not move; otherwise turn latch, one step, then the flags; identity and spawn side never change |
| Vehicles.TooClose | smart_traffic/traffic_simulation/vehicle.py:210-214 | true iff some vehicle ahead is closer than 50 along the approach axis |
| Vehicles.ShouldStop | smart_traffic/traffic_simulation/vehicle.py:193-235 | stop iff not past the signal line and either a vehicle ahead is too close or the lamp is red at the stop line |
| Vehicles.Decimal | smart_traffic/traffic_simulation/vehicle.py:22-24 | a number's decimal text is a non-empty string of digits |
| Vehicles.GeneratePlate | smart_traffic/traffic_simulation/vehicle.py:17-29 | the plate is the first attempt not already used, and it is added to the used set; nothing iff every attempt is used |
| VehicleProperties.TurnsAreInverse | smart_traffic/traffic_simulation/vehicle.py:133-157 | left and right rotations are mutual inverses, four lefts are the identity and visit every side |
| VehicleProperties.DistanceAntisymmetric | smart_traffic/traffic_simulation/vehicle.py:237-247 | two vehicles of one approach measure their gap with opposite signs |
| VehicleProperties.AdvanceClosesDistance | smart_traffic/traffic_simulation/vehicle.py:103-111 | before its turn one move closes the distance to any vehicle by exactly the speed |
| VehicleProperties.TurnLatched | smart_traffic/traffic_simulation/vehicle.py:99-101 | once turning, no number of moves changes the side again |
| VehicleProperties.SideChangesOnlyByTheTurn | smart_traffic/traffic_simulation/vehicle.py:99-101 | over any number of moves the side is the spawn side or its one turn |
| VehicleProperties.FlagsMonotone | smart_traffic/traffic_simulation/vehicle.py:91-92 | a crossed vehicle never moves again; both flags, once set, stay set over any number of moves |
| VehicleProperties.QueueSpacing | smart_traffic/traffic_simulation/vehicle.py:63-83 | vehicles placed at positions p < q of a side are 60(q - p) apart, never closer than the gap of 50 |
| VehicleProperties.DecimalRoundTrip | smart_traffic/traffic_simulation/vehicle.py:22-24 | reading back a number's decimal text gives the number |
| VehicleProperties.DecimalWidth | smart_traffic/traffic_simulation/vehicle.py:22-24 | two-digit and four-digit numbers print with two and four digits |
| VehicleProperties.PlateShape | smart_traffic/traffic_simulation/vehicle.py:19-25 | a plate is a state code, two digits, a capital letter and four digits |
| TrafficGenerator.ChooseType | smart_traffic/traffic_simulation/traffic_generator.py:31-38 | CAR on [0, 0.6), TRUCK on [0.6, 0.85), BUS on [0.85, 1) |
| TrafficGenerator.GenerateVehicle | smart_traffic/traffic_simulation/traffic_generator.py:22-64 | nothing when the queue is full or the spawn draw is not below the spawn rate 0.4; otherwise a fresh vehicle of the side at the queue's length, with an unused plate |
| Intersections.Init | smart_traffic/traffic_simulation/intersection.py:13-35 | four empty queues, zero crossings, no used plates, a fresh controller |
| Intersections.SpawnSide | smart_traffic/traffic_simulation/intersection.py:47-54 | a spawn appends the generated vehicle, re-placed for the window, to its side only |
| Intersections.MoveLane | smart_traffic/traffic_simulation/intersection.py:57-68 | vehicle i is given the first i vehicles, as already processed, as the vehicles ahead |
| Intersections.Survivors | smart_traffic/traffic_simulation/intersection.py:85 | the filter keeps exactly the vehicles that have not crossed and never lengthens the queue |
| Intersections.RemoveSide | smart_traffic/traffic_simulation/intersection.py:75-85 | removal on a side adds its crossed vehicles to the total and to their type counters, keeps the survivors, leaves other sides alone |
| Intersections.VehicleCount | smart_traffic/traffic_simulation/intersection.py:99-109 | a side's queue length; nothing iff the name is no side (the program's `KeyError`) |
| Intersections.SetWindowSize | smart_traffic/traffic_simulation/intersection.py:37-39 | only the window changes |
| Intersections.SpawnAll | smart_traffic/traffic_simulation/intersection.py:46-54 | the spawn pass changes only queues and used plates, and only the queues of the sides it visits |
| Intersections.MoveAll | smart_traffic/traffic_simulation/intersection.py:56-68 | every queue becomes its move pass under its own side's red test |
| IntersectionProperties.CountCrossedByType | smart_traffic/traffic_simulation/intersection.py:77-82 | each per-type counter is the number of crossed vehicles of that type in the queue |
| Intersections.RemoveAll | smart_traffic/traffic_simulation/intersection.py:73-85 | the removal pass keeps the controller, the window and the used plates |
| Intersections.Update | smart_traffic/traffic_simulation/intersection.py:41-71 | an update ticks the controller exactly once and keeps the window |
| Intersections.AllVehicles | smart_traffic/traffic_simulation/intersection.py:87-97 | the list holds exactly the vehicles of the four queues, the north queue first and in order, and no queue is longer |
| Intersections.TotalVehicleCount | smart_traffic/traffic_simulation/intersection.py:111-113 | the total is the length of the full vehicle list and bounds every queue |
| IntersectionProperties.SpawnAllEffect | smart_traffic/traffic_simulation/intersection.py:46-54 | the spawn pass appends at most one new arrival, at the queue's length, to every side |
| IntersectionProperties.SurvivorsCount | smart_traffic/traffic_simulation/intersection.py:85 | every vehicle that has not crossed keeps its multiplicity; crossed vehicles vanish |
| IntersectionProperties.SpawnKeepsFromSide | smart_traffic/traffic_simulation/traffic_generator.py:52-53 | spawning never pushes a queue past 15 and keeps it of one spawn side |
| IntersectionProperties.MoveLaneKeepsIdentity | smart_traffic/traffic_simulation/intersection.py:60-68 | the move pass keeps every vehicle's identity, type and spawn side in place |
| IntersectionProperties.MoveLaneSteps | smart_traffic/traffic_simulation/intersection.py:60-68 | vehicle i stays iff it should stop behind the processed prefix, and moves otherwise |
| IntersectionProperties.RemovalConserves | smart_traffic/traffic_simulation/intersection.py:79-85 | every vehicle of a queue is either kept or counted as crossed |
| IntersectionProperties.SurvivorsOfUncrossed | smart_traffic/traffic_simulation/intersection.py:85 | a queue with no crossed vehicle is kept whole and counts nothing |
| IntersectionProperties.RemoveAllCounts | smart_traffic/traffic_simulation/intersection.py:79-82 | the removal pass grows the total and the sum of the type counters by the same amount |
| IntersectionProperties.RemoveAllQueue | smart_traffic/traffic_simulation/intersection.py:75-85 | after the removal pass each queue is the order-preserving filter of its non-crossed vehicles |
| IntersectionProperties.InitEstablishesInv | smart_traffic/traffic_simulation/intersection.py:24-35 | construction establishes the intersection's invariant |
| IntersectionProperties.UpdateKeepsLane | smart_traffic/traffic_simulation/intersection.py:41-71 | after an update each queue is within capacity, of its spawn side and free of crossed vehicles |
| IntersectionProperties.UpdateKeepsCounts | smart_traffic/traffic_simulation/intersection.py:34-35 | an update keeps the total equal to the sum of the per-type counters |
| IntersectionProperties.UpdatePreservesInv | smart_traffic/traffic_simulation/intersection.py:41-85 | every update keeps the controller's invariant, the well-formed queues and the counter sum |
| IntersectionProperties.CountsAgree | smart_traffic/traffic_simulation/intersection.py:87-113 | the total count equals the number of vehicles listed and the sum of the four side counts |
| VehicleDetector.Classify | smart_traffic_system/models/vehicle_detector.py:86-111 | below the threshold nothing; otherwise car for 2, truck or bus for 7 or 5, motorcycle for 3, emergency for 6, nothing for other classes |
| VehicleDetector.DetectVehicles | smart_traffic_system/models/vehicle_detector.py:60-118 | a missing or empty frame gives no counts; otherwise each count is the number of boxes of its label, the total is their sum, the flag is set iff some box is an emergency, one detection per kept box |
| DetectorProperties.OneDetectionPerKeptBox | smart_traffic_system/models/vehicle_detector.py:113-118 | the detections number the counted vehicles plus the emergency boxes |
| DetectorProperties.BelowThresholdIgnored | smart_traffic_system/models/vehicle_detector.py:86-87 | removing a box below the threshold changes no count and no detection |
| DetectorProperties.UnknownClassIgnored | smart_traffic_system/models/vehicle_detector.py:110-111 | a box of an unknown class is skipped |
| DetectorProperties.ScenarioCarAndAmbulance | smart_traffic_system/models/vehicle_detector.py:86-118 | a confident car, a confident emergency vehicle and a weak truck give one car, the flag and two detections |
| Engine.Init | frontened/engine.py:5-8 | green bounds 5 and 60 with the camera working |
| Engine.DetectVehicles | frontened/engine.py:10-29 | nothing iff the camera is off; otherwise cars in [0, 20], trucks in [0, 5], bikes in [0, 10] |
| Engine.CalculateDuration | frontened/engine.py:31-51 | 30 without counts, 10 on an emergency, otherwise 2 per car, 3 per truck and 1 per bike clamped to the bounds |
| EngineProperties.RegularWithinBounds | frontened/engine.py:43-51 | with ordered bounds the regular duration lies within them |
| EngineProperties.DefaultsWithinBounds | frontened/engine.py:6-7 | with the constructor's bounds every duration lies in [5, 60] |
| EngineProperties.DurationMonotone | frontened/engine.py:43-51 | with ordered bounds more vehicles never shorten the green |
| EngineProperties.CameraCovers | frontened/engine.py:19-22 | every count within the ranges, with or without an ambulance, is some camera reading |
| EngineProperties.ScenarioDurations | frontened/engine.py:31-51 | 10 cars, 2 trucks, 5 bikes give 31; 40 cars give 60; one bike gives 5; an emergency gives 10 |
| Utils.GreenTime | utils.py:32-50 | the minimum for no vehicles; otherwise the smaller of the minimum plus two per vehicle and the maximum |
| UtilsProperties.DensityAppend | utils.py:24-29 | the density of consecutive stretches of items adds up |
| UtilsProperties.UnknownKeyIgnored | utils.py:26-27 | an item whose key has no weight does not change the density |
| Utils.DensityNonNegative | utils.py:24-29 | non-negative counts and weights give a non-negative density |
| Utils.DefaultDensity | utils.py:21-29 | with the default weights and distinct keys the density is cars + 2 trucks + 0.5 bikes |
| Utils.TrafficDensity | utils.py:10-29 | without weights and with distinct keys the density is cars + 2 trucks + 0.5 bikes; with weights each key counts its weight; non-negative counts and weights give a non-negative density |
| UtilsProperties.ScenarioDensity | test_system.py:36-45 | 10 cars, 2 trucks and 5 bikes have density 16.5 |
| UtilsProperties.GreenTimeWithinBounds | utils.py:44-50 | with ordered bounds and a non-negative count the green time lies within them |
| UtilsProperties.GreenTimeMonotone | utils.py:44-50 | with ordered bounds the green time never decreases with the count |
| UtilsProperties.ScenarioGreenTimes | test_system.py:47-61 | with the defaults, 0, 10 and 100 vehicles give 5, 25 and 60 |

## Left out

- Rendering, GUI, video capture, threading, logging and file output are not modelled. This covers the display and GUI modules, the drawing methods of the detector, `log_traffic_data`, `draw_bounding_boxes`, `add_info_overlay` and `get_timestamp`. They hold no decision logic.
- The entry-point loops, the `run_system` loop of the demo engine and its `sleep` are not modelled. They are I/O and timing around the modelled steps.
- `print` output is not modelled.
- The clock is an integer `now`, where the program uses floating-point seconds. All clock reads inside one update are taken as the same instant.
- Random draws are inputs, so no probability is modelled. Only the mapping from draws to outcomes is.
- The YOLO call and its exception handler are not modelled. Its result stream is flattened to one sequence of boxes. Box coordinates are dropped.
- Vehicle sizes and colours are display data and are not modelled.
- `ALL_RED`, `YELLOW_TIME`, `ALL_RED_TIME`, `EMERGENCY_GREEN_TIME` and `emergency_side` drive no transition, so no all-red dwell and no emergency timeout exist in the model. Emergency mode, once on, is never cleared, as in the program.
- `get_signal_states` and `get_current_side` are not modelled separately. They are plain reads of the controller's fields.
- The adaptive controller's "Standard switch" reason is modelled, but no update can produce it. `UpdateSwitchReason` proves this.
- Side orders differ between components:
  - The adaptive controller's configured sequence is NORTH, EAST, SOUTH, WEST.
  - The fixed-timer controller's class comment promises North, East, South, West.
  - Its code cycles through NORTH, SOUTH, EAST, WEST, and so does the intersection's queue dictionary.
  - The model follows the code in each component.
- `vechicle_detector.py` at the repository root is a truncated stub and is not part of this model.
- AdaptiveController.HandleEmergency: an emergency side outside the sequence is modelled as a `Failure`. The program has already set `current_side` when `list.index` raises, and that half-updated state is not modelled.
- Vehicles.GeneratePlate: the program retries random plates until it finds an unused one, with no bound. The model takes a finite sequence of attempts and yields nothing when all of them are used, so the intersection then spawns no vehicle.
- Vehicles.DistanceTo: the value 999 for an unknown side is not modelled, because sides form a closed type here.
- Intersections.VehicleCount: the `KeyError` for an unknown name is modelled as `None`.
- EngineProperties.DurationMonotone: this is stated only for `min_green_time <= max_green_time`. With crossed bounds the program's clamp returns the minimum below it and the maximum above it, and that is not monotone.
- Utils.DefaultDensity: this is stated for items with distinct keys, which is what a Python dictionary guarantees.
- Utils.TrafficDensity: the closed form is likewise stated for items with distinct keys.
- The program's floating-point values become exact Dafny `real`s with no rounding: the random draws, the vehicle-type probabilities and the cumulative sums `random.choices` forms from them, detector confidences and densities.
- The program's set of used plates is a class attribute of `Vehicle`, shared by every vehicle in the process. The model keeps it as a field of each intersection, empty at construction. The two agree because the program builds a single intersection.

=== FILE: adaptive_controller.dfy ===
/** The adaptive signal controller of smart_traffic_system (TrafficSignalController).

    One side at a time is GREEN.  Each `Update` reads the per-side vehicle counts and
    applies, in order: emergency preemption, the minimum-green floor, the maximum-green
    ceiling and early clearance after sustained low traffic.  A standard switch advances
    cyclically through the configured sequence; the new side goes GREEN, the previous one
    YELLOW and the rest RED.  `ManualOverride` is a separate forced switch.

    The wall clock is the explicit argument `now`: every clock read inside one call is
    the same instant. */
module AdaptiveController {
  import opened Options
  import opened Sides

  /** Lamp states.  `AllRed` exists in the program's enumeration but no transition uses it. */
  datatype SignalState = Red | Yellow | Green | AllRed

  /** The configuration the controller reads at construction. */
  datatype Config = Config(
    sequence: seq<Side>,
    maxGreen: int,
    minGreen: int,
    clearanceThreshold: int,
    clearanceWait: int,
    emergencyDetection: bool)

  /** The values of the system's configuration file. */
  const DefaultConfig: Config := Config([North, East, South, West], 30, 10, 3, 5, true)

  datatype Reason = MaxTimeReached | EarlyClearance | StandardSwitch

  /** One entry of the signal-change history. */
  datatype Change = Change(time: int, from: Side, to: Side, duration: int, reason: Reason)

  datatype Controller = Controller(
    cfg: Config,
    index: int,
    current: Side,
    states: map<Side, SignalState>,
    greenStart: int,
    greenDuration: int,
    lowTrafficStart: Option<int>,
    emergencyMode: bool,
    totalCycles: nat,
    history: seq<Change>)

  /** A side's payload in the counts dictionary: a bare integer, or a detector record with
      optional `total_vehicles` and `emergency` entries. */
  datatype CountData = Bare(n: int) | Record(total: Option<int>, emergency: Option<bool>)

  /** The counts dictionary as its list of items, in insertion order. */
  type Counts = seq<(string, CountData)>

  /** What an update reports back to its caller. */
  datatype Report =
    | Continuing(side: Side, timeRemaining: int)
    | Switched(from: Side, to: Side, duration: int, reason: Reason, totalCycles: nat)
    | EmergencyHold(side: Side)
    | EmergencySwitch(from: Side, to: Side)

  /** `list.index` of a name that is not in the sequence raises. */
  datatype Error = UnknownSide(name: string)

  datatype Statistics = Statistics(
    totalCycles: nat, current: Side, currentDuration: int, signalChanges: nat, recentChanges: seq<Change>)

  /** Safety invariant: the active side is the sequence entry at the index, it is the only
      GREEN side, and no side shows ALL_RED. */
  ghost predicate Inv(c: Controller) {
    && |c.cfg.sequence| > 0
    && 0 <= c.index < |c.cfg.sequence|
    && c.current == c.cfg.sequence[c.index]
    && (forall s :: s in c.states <==> s in c.cfg.sequence)
    && c.current in c.states
    && c.states[c.current] == Green
    && (forall s :: s in c.states && s != c.current ==> c.states[s] == Red || c.states[s] == Yellow)
  }

  /** The set of GREEN sides. */
  function GreenSides(c: Controller): set<Side> {
    set s | s in c.states && c.states[s] == Green
  }

  /** Construction: the first side of the sequence is GREEN, every other side RED. */
  function Init(cfg: Config, now: int): (c: Controller)
    requires |cfg.sequence| > 0
    ensures Inv(c) && c.cfg == cfg
    ensures c.index == 0 && c.current == cfg.sequence[0]
    ensures forall s :: s in c.states && s != c.current ==> c.states[s] == Red
    ensures c.greenStart == now && c.greenDuration == 0 && c.lowTrafficStart.None? && !c.emergencyMode
    ensures c.totalCycles == 0 && c.history == []
    ensures cfg.maxGreen >= 0 ==> TimeRemaining(c) == cfg.maxGreen
  {
    var states := map s | s in cfg.sequence :: Red;
    Controller(cfg, 0, cfg.sequence[0], states[cfg.sequence[0] := Green], now, 0, None, false, 0, [])
  }

  /** Position of the first item with the key, or the number of items when none has it. */
  function FirstIndex(counts: Counts, key: string): (i: nat)
    ensures i <= |counts|
    ensures forall j :: 0 <= j < i ==> counts[j].0 != key
    ensures i < |counts| ==> counts[i].0 == key
  {
    if |counts| == 0 then 0
    else if counts[0].0 == key then 0
    else 1 + FirstIndex(counts[1..], key)
  }

  /** Dictionary lookup: the payload of the first item with the key. */
  function Lookup(counts: Counts, key: string): (r: Option<CountData>)
    ensures var i := FirstIndex(counts, key);
            && (r.None? <==> i == |counts|)
            && (r.Some? ==> counts[i].1 == r.value)
  {
    if |counts| == 0 then None
    else if counts[0].0 == key then Some(counts[0].1)
    else Lookup(counts[1..], key)
  }

  /** The count the controller reads for the active side: 0 when the side is missing,
      a bare integer as is, and the `total_vehicles` entry (default 0) of a record. */
  function VehicleCount(counts: Counts, side: Side): (n: int)
    ensures var i := FirstIndex(counts, Name(side));
            && (i == |counts| ==> n == 0)
            && (i < |counts| ==>
                  match counts[i].1
                  case Bare(m) => n == m
                  case Record(t, _) => n == t.GetOr(0))
  {
    match Lookup(counts, Name(side))
    case None => 0
    case Some(Bare(m)) => m
    case Some(Record(t, _)) => t.GetOr(0)
  }

  /** A payload announces an emergency vehicle only when it is a record whose `emergency`
      entry is true; a bare integer never does. */
  predicate IsEmergency(d: CountData) {
    d.Record? && d.emergency == Some(true)
  }

  /** The key of the first item whose payload announces an emergency. */
  function FindEmergency(counts: Counts): (r: Option<string>)
    ensures r.None? <==> forall i :: 0 <= i < |counts| ==> !IsEmergency(counts[i].1)
    ensures r.Some? ==>
      exists i :: 0 <= i < |counts| && counts[i].0 == r.value && IsEmergency(counts[i].1)
        && forall j :: 0 <= j < i ==> !IsEmergency(counts[j].1)
  {
    if |counts| == 0 then None
    else if IsEmergency(counts[0].1) then Some(counts[0].0)
    else
      var r := FindEmergency(counts[1..]);
      assert r.Some? ==> exists i :: 0 <= i < |counts| && counts[i].0 == r.value && IsEmergency(counts[i].1)
                                     && forall j :: 0 <= j < i ==> !IsEmergency(counts[j].1) by {
        if r.Some? {
          var i :| 0 <= i < |counts[1..]| && counts[1..][i].0 == r.value && IsEmergency(counts[1..][i].1)
            && forall j :: 0 <= j < i ==> !IsEmergency(counts[1..][j].1);
          assert counts[i + 1] == counts[1..][i];
          assert forall j :: 0 <= j < i + 1 ==> !IsEmergency(counts[j].1) by {
            forall j | 0 <= j < i + 1 ensures !IsEmergency(counts[j].1) {
              if j > 0 { assert counts[j] == counts[1..][j - 1]; }
            }
          }
        }
      }
      assert r.None? ==> forall i :: 0 <= i < |counts| ==> !IsEmergency(counts[i].1) by {
        if r.None? {
          forall i | 0 <= i < |counts| ensures !IsEmergency(counts[i].1) {
            if i > 0 { assert counts[i] == counts[1..][i - 1]; }
          }
        }
      }
      r
  }

  /** The emergency side an update acts on.  The program tests the found key for
      truthiness, so an emergency reported under the empty key is ignored. */
  function EmergencyTarget(cfg: Config, counts: Counts): (r: Option<string>)
    ensures r.Some? ==> cfg.emergencyDetection && FindEmergency(counts) == r && r.value != ""
    ensures r.None? ==> !cfg.emergencyDetection || FindEmergency(counts) in {None, Some("")}
  {
    if !cfg.emergencyDetection then None
    else match FindEmergency(counts)
      case None => None
      case Some(name) => if name == "" then None else Some(name)
  }

  /** Position of the first occurrence of `s` in `xs` (`list.index`). */
  function IndexOf(xs: seq<Side>, s: Side): (i: nat)
    requires s in xs
    ensures i < |xs| && xs[i] == s
    ensures forall j :: 0 <= j < i ==> xs[j] != s
  {
    if xs[0] == s then 0 else 1 + IndexOf(xs[1..], s)
  }

  /** Decision of `_should_switch_signal` on the held duration `c.greenDuration`, together
      with the new low-traffic timer. */
  function ShouldSwitch(c: Controller, vehicles: int, now: int): (r: (bool, Option<int>))
    ensures c.greenDuration < c.cfg.minGreen ==> r == (false, c.lowTrafficStart)
    ensures c.cfg.minGreen <= c.greenDuration && c.cfg.maxGreen <= c.greenDuration ==> r == (true, c.lowTrafficStart)
    ensures c.cfg.minGreen <= c.greenDuration < c.cfg.maxGreen && vehicles > c.cfg.clearanceThreshold ==> r == (false, None)
    ensures c.cfg.minGreen <= c.greenDuration < c.cfg.maxGreen && vehicles <= c.cfg.clearanceThreshold ==>
      r.1 == Some(c.lowTrafficStart.GetOr(now)) && (r.0 <==> now - r.1.value >= c.cfg.clearanceWait)
  {
    if c.greenDuration < c.cfg.minGreen then (false, c.lowTrafficStart)
    else if c.greenDuration >= c.cfg.maxGreen then (true, c.lowTrafficStart)
    else if vehicles <= c.cfg.clearanceThreshold then
      var start := if c.lowTrafficStart.None? then now else c.lowTrafficStart.value;
      (now - start >= c.cfg.clearanceWait, Some(start))
    else (false, None)
  }

  /** Reason recorded for a switch after holding green for `duration`. */
  function SwitchReason(cfg: Config, duration: int, lowTrafficStart: Option<int>): (r: Reason)
    ensures r == MaxTimeReached <==> duration >= cfg.maxGreen
    ensures r == EarlyClearance <==> duration < cfg.maxGreen && lowTrafficStart.Some?
    ensures r == StandardSwitch <==> duration < cfg.maxGreen && lowTrafficStart.None?
  {
    if duration >= cfg.maxGreen then MaxTimeReached
    else if lowTrafficStart.Some? then EarlyClearance
    else StandardSwitch
  }

  /** Lamps after a standard switch from `previous` to `next`: the previous side is set
      YELLOW, then every side of the sequence is set GREEN if it is `next`, YELLOW if it is
      `previous` and RED otherwise. */
  function SwitchStates(states: map<Side, SignalState>, sequence: seq<Side>, previous: Side, next: Side)
    : (r: map<Side, SignalState>)
    requires next in sequence
    ensures forall s :: s in r <==> s in states || s == previous || s in sequence
    ensures forall s :: s in sequence ==> (r[s] == Green <==> s == next)
    ensures previous != next ==> r[previous] == Yellow
    ensures forall s :: s in sequence && s != next && s != previous ==> r[s] == Red
    ensures forall s :: s in r && s !in sequence && s != previous ==> r[s] == states[s]
  {
    states[previous := Yellow] + map s | s in sequence :: if s == next then Green else if s == previous then Yellow else Red
  }

  /** Lamps after a forced switch to `target`: GREEN there, RED on every other side of the
      sequence, and unchanged outside it. */
  function ForcedStates(states: map<Side, SignalState>, sequence: seq<Side>, target: Side)
    : (r: map<Side, SignalState>)
    ensures forall s :: s in r <==> s in states || s in sequence
    ensures forall s :: s in sequence ==> (r[s] == Green <==> s == target)
    ensures forall s :: s in sequence && s != target ==> r[s] == Red
    ensures forall s :: s in r && s !in sequence ==> r[s] == states[s]
  {
    states + map s | s in sequence :: if s == target then Green else Red
  }

  /** The standard switch to the next side of the sequence. */
  function SwitchToNext(c: Controller, now: int): (r: (Controller, Report))
    requires |c.cfg.sequence| > 0
    ensures r.0.cfg == c.cfg && r.0.emergencyMode == c.emergencyMode
    ensures r.0.index == NextIndex(c.index, |c.cfg.sequence|)
    ensures r.0.current == c.cfg.sequence[r.0.index]
    ensures r.0.states == SwitchStates(c.states, c.cfg.sequence, c.current, r.0.current)
    ensures r.0.greenStart == now && r.0.lowTrafficStart.None? && r.0.greenDuration == c.greenDuration
    ensures r.0.totalCycles == if r.0.current == c.cfg.sequence[0] then c.totalCycles + 1 else c.totalCycles
    ensures r.1 == Switched(c.current, r.0.current, c.greenDuration,
                            SwitchReason(c.cfg, c.greenDuration, c.lowTrafficStart), r.0.totalCycles)
    ensures r.0.history == c.history + [Change(now, c.current, r.0.current, c.greenDuration, r.1.reason)]
  {
    var sequence := c.cfg.sequence;
    var previous := c.current;
    var reason := SwitchReason(c.cfg, c.greenDuration, c.lowTrafficStart);
    var i := NextIndex(c.index, |sequence|);
    var next := sequence[i];
    var states := SwitchStates(c.states, sequence, previous, next);
    var cycles := if next == sequence[0] then c.totalCycles + 1 else c.totalCycles;
    var c' := c.(index := i, current := next, states := states, greenStart := now,
                 lowTrafficStart := None, totalCycles := cycles,
                 history := c.history + [Change(now, previous, next, c.greenDuration, reason)]);
    (c', Switched(previous, next, c.greenDuration, reason, cycles))
  }

  /** The forced switch shared by emergency preemption and manual override: the target
      goes GREEN, every other side of the sequence RED, and the green timer restarts. */
  function ForceGreen(c: Controller, target: Side, now: int): (r: Controller)
    requires target in c.cfg.sequence
    ensures r.current == target && 0 <= r.index < |c.cfg.sequence| && c.cfg.sequence[r.index] == target
    ensures forall s :: s in c.cfg.sequence ==> s in r.states && (r.states[s] == Green <==> s == target)
    ensures forall s :: s in c.cfg.sequence && s != target ==> r.states[s] == Red
    ensures r.greenStart == now
    ensures r == c.(current := r.current, index := r.index, states := r.states, greenStart := r.greenStart)
  {
    var states := ForcedStates(c.states, c.cfg.sequence, target);
    c.(current := target, index := IndexOf(c.cfg.sequence, target), states := states, greenStart := now)
  }

  /** `_handle_emergency`: hold when the emergency is on the active side, otherwise jump
      straight to the emergency side. */
  function HandleEmergency(c: Controller, name: string, now: int): (r: Result<(Controller, Report), Error>)
    ensures name == Name(c.current) ==> r == Success((c, EmergencyHold(c.current)))
    ensures name != Name(c.current) ==>
      (r.Success? <==> exists s :: s in c.cfg.sequence && Name(s) == name)
    ensures name != Name(c.current) && r.Success? ==>
      var (c', rep) := r.value;
      && Name(c'.current) == name && c'.cfg == c.cfg && 0 <= c'.index < |c.cfg.sequence| && c.cfg.sequence[c'.index] == c'.current
      && (forall s :: s in c.cfg.sequence ==> s in c'.states && (c'.states[s] == Green <==> s == c'.current))
      && (forall s :: s in c.cfg.sequence && s != c'.current ==> c'.states[s] == Red)
      && c'.emergencyMode && c'.greenStart == now && c'.greenDuration == c.greenDuration
      && c'.totalCycles == c.totalCycles && c'.history == c.history && c'.lowTrafficStart == c.lowTrafficStart
      && rep == EmergencySwitch(c.current, c'.current)
  {
    if name == Name(c.current) then Success((c, EmergencyHold(c.current)))
    else match Parse(name)
      case None => Failure(UnknownSide(name))
      case Some(t) =>
        if t !in c.cfg.sequence then Failure(UnknownSide(name))
        else Success((ForceGreen(c, t, now).(emergencyMode := true), EmergencySwitch(c.current, t)))
  }

  /** `get_time_remaining`: green time left before the maximum, never negative. */
  function TimeRemaining(c: Controller): (r: int)
    ensures r >= 0
    ensures r == 0 <==> c.greenDuration >= c.cfg.maxGreen
    ensures c.greenDuration >= 0 ==> r <= c.cfg.maxGreen || r == 0
    ensures r > 0 ==> c.greenDuration + r == c.cfg.maxGreen
  {
    if c.cfg.maxGreen - c.greenDuration > 0 then c.cfg.maxGreen - c.greenDuration else 0
  }

  /** The regular part of a tick, on the controller whose green duration has been
      refreshed and the active side's count: the decision of `_should_switch_signal`, then
      either the standard switch or a status report. */
  function Tick(held: Controller, vehicles: int, now: int): (r: (Controller, Report))
    requires |held.cfg.sequence| > 0
    ensures r.0.cfg == held.cfg && r.0.emergencyMode == held.emergencyMode
    ensures r.1.Switched? || r.1.Continuing?
    ensures r.1.Switched? ==> held.greenDuration >= held.cfg.minGreen && r.1.duration == held.greenDuration
    ensures held.cfg.minGreen <= held.greenDuration && held.cfg.maxGreen <= held.greenDuration ==> r.1.Switched?
    ensures r.1.Switched? ==> r.0.history == held.history + [Change(now, r.1.from, r.1.to, r.1.duration, r.1.reason)]
    ensures r.1.Continuing? ==>
      && r.0.history == held.history && r.0.index == held.index && r.0.current == held.current
      && r.0.states == held.states && r.0.totalCycles == held.totalCycles
      && r.1.side == held.current && r.1.timeRemaining >= 0
    ensures r.0.totalCycles >= held.totalCycles
  {
    var (switch, low) := ShouldSwitch(held, vehicles, now);
    var held' := held.(lowTrafficStart := low);
    if switch then SwitchToNext(held', now)
    else (held', Continuing(held'.current, TimeRemaining(held')))
  }

  /** One control tick: refresh the green duration, then emergency preemption before the
      regular rules. */
  function Update(c: Controller, counts: Counts, now: int): (r: Result<(Controller, Report), Error>)
    requires |c.cfg.sequence| > 0
    ensures r.Failure? ==> EmergencyTarget(c.cfg, counts).Some? && r.error == UnknownSide(EmergencyTarget(c.cfg, counts).value)
    ensures EmergencyTarget(c.cfg, counts).None? ==> r.Success? && (r.value.1.Switched? || r.value.1.Continuing?)
    ensures EmergencyTarget(c.cfg, counts).Some? && r.Success? ==> r.value.1.EmergencyHold? || r.value.1.EmergencySwitch?
    ensures r.Success? ==> r.value.0.cfg == c.cfg && r.value.0.totalCycles >= c.totalCycles
    ensures r.Success? && !r.value.1.Switched? ==> r.value.0.history == c.history
    ensures r.Success? && r.value.1.Switched? ==>
      && now - c.greenStart >= c.cfg.minGreen && r.value.1.duration == now - c.greenStart
      && r.value.0.history == c.history + [Change(now, r.value.1.from, r.value.1.to, r.value.1.duration, r.value.1.reason)]
  {
    var held := c.(greenDuration := now - c.greenStart);
    match EmergencyTarget(c.cfg, counts)
    case Some(name) => HandleEmergency(held, name, now)
    case None => Success(Tick(held, VehicleCount(counts, c.current), now))
  }

  /** `manual_override`: false and no change for a side outside the sequence; true and no
      change for the active side; otherwise true and a forced switch to the target. */
  function ManualOverride(c: Controller, target: string, now: int): (r: (bool, Controller))
    ensures r.0 <==> exists s :: s in c.cfg.sequence && Name(s) == target
    ensures !r.0 || target == Name(c.current) ==> r.1 == c
    ensures r.0 && target != Name(c.current) ==>
      && Name(r.1.current) == target && 0 <= r.1.index < |c.cfg.sequence| && c.cfg.sequence[r.1.index] == r.1.current
      && (forall s :: s in c.cfg.sequence ==> s in r.1.states && (r.1.states[s] == Green <==> s == r.1.current))
      && (forall s :: s in c.cfg.sequence && s != r.1.current ==> r.1.states[s] == Red)
      && r.1.greenStart == now
      && r.1 == c.(current := r.1.current, index := r.1.index, states := r.1.states, greenStart := now)
  {
    match Parse(target)
    case None => (false, c)
    case Some(t) =>
      if t !in c.cfg.sequence then (false, c)
      else if t == c.current then (true, c)
      else (true, ForceGreen(c, t, now))
  }

  /** `get_statistics`, with the ten most recent changes. */
  function GetStatistics(c: Controller): (r: Statistics)
    ensures r.signalChanges == |c.history|
    ensures |r.recentChanges| == if |c.history| < 10 then |c.history| else 10
    ensures c.history == c.history[..|c.history| - |r.recentChanges|] + r.recentChanges
    ensures r.totalCycles == c.totalCycles && r.current == c.current && r.currentDuration == c.greenDuration
  {
    var recent := if |c.history| <= 10 then c.history else c.history[|c.history| - 10..];
    Statistics(c.totalCycles, c.current, c.greenDuration, |c.history|, recent)
  }
}

=== FILE: adaptive_properties.dfy ===
/** Properties of the adaptive signal controller: the safety invariant is kept by every
    entry point, the green-time floor and ceiling, the early-clearance timer, emergency
    priority and the cyclic order of standard switches. */
module AdaptiveProperties {
  import opened Options
  import opened Sides
  import opened AdaptiveController

  /** No side occurs twice in the sequence (true of the configured clockwise order). */
  predicate Distinct(xs: seq<Side>) {
    forall i, j :: 0 <= i < j < |xs| ==> xs[i] != xs[j]
  }

  /** No emergency is acted on in this update. */
  predicate NoEmergency(c: Controller, counts: Counts) {
    EmergencyTarget(c.cfg, counts).None?
  }

  /** Under the invariant exactly one side is GREEN: the active one. */
  lemma OnlyCurrentIsGreen(c: Controller)
    requires Inv(c)
    ensures GreenSides(c) == {c.current}
  {
  }

  /** Every update that succeeds keeps the invariant. */
  lemma UpdatePreservesInv(c: Controller, counts: Counts, now: int)
    requires Inv(c)
    ensures Update(c, counts, now).Success? ==> Inv(Update(c, counts, now).value.0)
  {
  }

  /** Manual override keeps the invariant. */
  lemma ManualOverridePreservesInv(c: Controller, target: string, now: int)
    requires Inv(c)
    ensures Inv(ManualOverride(c, target, now).1)
  {
  }

  /** Under the invariant an update fails only when an emergency is reported under a key
      that names no side of the sequence (the program's `list.index` raises there). */
  lemma UpdateFailsOnlyOnUnknownEmergencySide(c: Controller, counts: Counts, now: int)
    requires Inv(c)
    ensures Update(c, counts, now).Failure? <==>
      EmergencyTarget(c.cfg, counts).Some? && forall s :: s in c.cfg.sequence ==> Name(s) != EmergencyTarget(c.cfg, counts).value
  {
    match EmergencyTarget(c.cfg, counts)
    case None =>
    case Some(name) =>
      if name == Name(c.current) {
        assert c.current in c.cfg.sequence;
      }
  }

  /** Minimum-green floor: without an emergency, no switch happens before `minGreen`
      whatever the count, and only the held duration is refreshed. */
  lemma MinGreenFloor(c: Controller, counts: Counts, now: int)
    requires |c.cfg.sequence| > 0
    requires NoEmergency(c, counts)
    requires now - c.greenStart < c.cfg.minGreen
    ensures var held := c.(greenDuration := now - c.greenStart);
            Update(c, counts, now) == Success((held, Continuing(c.current, TimeRemaining(held))))
  {
    var held := c.(greenDuration := now - c.greenStart);
    assert Tick(held, VehicleCount(counts, c.current), now) == (held, Continuing(c.current, TimeRemaining(held)));
  }

  /** Maximum-green ceiling: once both bounds are reached a switch to the next side of the
      sequence always happens, for the reason "Maximum time reached". */
  lemma MaxGreenCeiling(c: Controller, counts: Counts, now: int)
    requires |c.cfg.sequence| > 0
    requires NoEmergency(c, counts)
    requires now - c.greenStart >= c.cfg.minGreen && now - c.greenStart >= c.cfg.maxGreen
    ensures Update(c, counts, now).Success?
    ensures var (c', rep) := Update(c, counts, now).value;
            && rep.Switched? && rep.reason == MaxTimeReached && rep.duration == now - c.greenStart
            && c'.index == NextIndex(c.index, |c.cfg.sequence|) && c'.current == c.cfg.sequence[c'.index]
  {
  }

  /** Early clearance with low traffic: the timer starts at `now` if it was not running,
      and the switch happens exactly when low traffic has lasted `clearanceWait`; the
      reason is then early clearance, otherwise the timer keeps running. */
  lemma EarlyClearanceOnLowTraffic(c: Controller, counts: Counts, now: int)
    requires |c.cfg.sequence| > 0
    requires NoEmergency(c, counts)
    requires c.cfg.minGreen <= now - c.greenStart < c.cfg.maxGreen
    requires VehicleCount(counts, c.current) <= c.cfg.clearanceThreshold
    ensures Update(c, counts, now).Success?
    ensures var start := c.lowTrafficStart.GetOr(now);
            var (c', rep) := Update(c, counts, now).value;
            && (rep.Switched? <==> now - start >= c.cfg.clearanceWait)
            && (rep.Switched? ==> rep.reason == EarlyClearance && c'.lowTrafficStart.None?)
            && (!rep.Switched? ==> c'.lowTrafficStart == Some(start) && c'.current == c.current)
  {
  }

  /** Traffic above the clearance threshold stops the low-traffic timer and never switches
      between the two green bounds. */
  lemma HeavyTrafficResetsTimer(c: Controller, counts: Counts, now: int)
    requires |c.cfg.sequence| > 0
    requires NoEmergency(c, counts)
    requires c.cfg.minGreen <= now - c.greenStart < c.cfg.maxGreen
    requires VehicleCount(counts, c.current) > c.cfg.clearanceThreshold
    ensures Update(c, counts, now).Success?
    ensures var (c', rep) := Update(c, counts, now).value;
            rep.Continuing? && c'.lowTrafficStart.None? && c'.current == c.current && c'.states == c.states
  {
  }

  /** A switch made by an update is always for the maximum time or for early clearance:
      the reason "Standard switch" is unreachable through `update`. */
  lemma UpdateSwitchReason(c: Controller, counts: Counts, now: int)
    requires |c.cfg.sequence| > 0
    ensures Update(c, counts, now).Success? && Update(c, counts, now).value.1.Switched? ==>
      var rep := Update(c, counts, now).value.1;
      (rep.reason == MaxTimeReached <==> now - c.greenStart >= c.cfg.maxGreen)
      && rep.reason != StandardSwitch
  {
  }

  /** Emergency preemption comes first: whatever the held time, an acted-on emergency is
      handled before the green-time rules.  On the active side nothing changes but the held
      duration; elsewhere the emergency side goes GREEN, every other side RED, and neither
      the cycle count nor the history change. */
  lemma EmergencyPreemption(c: Controller, counts: Counts, now: int)
    requires Inv(c)
    requires EmergencyTarget(c.cfg, counts).Some?
    ensures var name := EmergencyTarget(c.cfg, counts).value;
            var held := c.(greenDuration := now - c.greenStart);
            && (name == Name(c.current) ==> Update(c, counts, now) == Success((held, EmergencyHold(c.current))))
            && (name != Name(c.current) && (exists s :: s in c.cfg.sequence && Name(s) == name) ==>
                  Update(c, counts, now).Success?
                  && var (c', rep) := Update(c, counts, now).value;
                  && Name(c'.current) == name && Inv(c')
                  && (forall s :: s in c'.states && s != c'.current ==> c'.states[s] == Red)
                  && c'.emergencyMode && c'.totalCycles == c.totalCycles && c'.history == c.history
                  && rep == EmergencySwitch(c.current, c'.current))
  {
  }

  /** `k` standard switches in a row. */
  function Switches(c: Controller, k: nat, now: int): (r: Controller)
    requires |c.cfg.sequence| > 0
    ensures r.cfg == c.cfg
    decreases k
  {
    if k == 0 then c else Switches(SwitchToNext(c, now).0, k - 1, now)
  }

  /** A standard switch keeps the invariant. */
  lemma SwitchPreservesInv(c: Controller, now: int)
    requires Inv(c)
    ensures Inv(SwitchToNext(c, now).0)
  {
  }

  /** The effect of one standard switch under the invariant: the next side of the sequence
      (wrapping after the last) goes GREEN, the previous side YELLOW and all others RED;
      both timers reset, and the cycle count grows exactly when the new side is the first
      of the sequence. */
  lemma StandardSwitchEffect(c: Controller, now: int)
    requires Inv(c)
    ensures var (c', rep) := SwitchToNext(c, now);
            var n := |c.cfg.sequence|;
            && c'.index == (if c.index + 1 < n then c.index + 1 else 0)
            && c'.current == c.cfg.sequence[c'.index]
            && (forall s :: s in c'.states <==> s in c.cfg.sequence)
            && (forall s :: s in c'.states ==> (c'.states[s] == Green <==> s == c'.current))
            && (c.current != c'.current ==> c'.states[c.current] == Yellow)
            && (forall s :: s in c'.states && s != c'.current && s != c.current ==> c'.states[s] == Red)
            && c'.greenStart == now && c'.lowTrafficStart.None?
            && c'.totalCycles == (if c'.current == c.cfg.sequence[0] then c.totalCycles + 1 else c.totalCycles)
            && rep.Switched? && rep.from == c.current && rep.to == c'.current && rep.duration == c.greenDuration
            && c'.history == c.history + [Change(now, c.current, c'.current, c.greenDuration, rep.reason)]
  {
  }

  /** Any number of standard switches keeps the invariant. */
  lemma {:induction false} SwitchesPreserveInv(c: Controller, k: nat, now: int)
    requires Inv(c)
    ensures Inv(Switches(c, k, now))
    decreases k
  {
    if k > 0 {
      SwitchPreservesInv(c, now);
      SwitchesPreserveInv(SwitchToNext(c, now).0, k - 1, now);
    }
  }

  /** The first side of the sequence does not come back later in it, so returning to it
      marks the completion of a cycle. */
  predicate StartsOnce(xs: seq<Side>) {
    |xs| > 0 ==> xs[0] !in xs[1..]
  }

  /** Sequence fidelity within one round: `j` standard switches (j at most the sequence
      length) from index i reach index i + j, wrapped once past the end. */
  lemma {:induction false} SwitchesWithinRound(c: Controller, j: nat, now: int)
    requires |c.cfg.sequence| > 0 && 0 <= c.index < |c.cfg.sequence|
    requires j <= |c.cfg.sequence|
    ensures var n := |c.cfg.sequence|;
            Switches(c, j, now).index == (if c.index + j < n then c.index + j else c.index + j - n)
    decreases j
  {
    if j > 0 {
      var c1 := SwitchToNext(c, now).0;
      assert c1.index == NextIndex(c.index, |c.cfg.sequence|) && c1.cfg == c.cfg;
      SwitchesWithinRound(c1, j - 1, now);
      assert Switches(c, j, now) == Switches(c1, j - 1, now);
    }
  }

  /** Cycle counting within one round: when the first side occurs only once in the
      sequence, `j` standard switches count one cycle exactly when they wrap past its end. */
  lemma CyclesWithinRound(c: Controller, j: nat, now: int)
    requires |c.cfg.sequence| > 0 && 0 <= c.index < |c.cfg.sequence| && StartsOnce(c.cfg.sequence)
    requires j <= |c.cfg.sequence|
    ensures var n := |c.cfg.sequence|;
            Switches(c, j, now).totalCycles == (if c.index + j >= n then c.totalCycles + 1 else c.totalCycles)
  {
    SwitchesAdvanceCycles(c, j, now);
    DivModSmall(c.index + j, |c.cfg.sequence|);
  }

  /** One standard switch from a valid index counts a cycle exactly when it wraps to the
      start of the sequence. */
  lemma CycleStep(c: Controller, now: int)
    requires |c.cfg.sequence| > 0 && 0 <= c.index < |c.cfg.sequence| && StartsOnce(c.cfg.sequence)
    ensures var r := SwitchToNext(c, now).0;
            r.totalCycles == (if c.index + 1 == |c.cfg.sequence| then c.totalCycles + 1 else c.totalCycles)
  {
    var xs := c.cfg.sequence;
    var r := SwitchToNext(c, now).0;
    if r.index != 0 {
      assert xs[1..][r.index - 1] == r.current;
    }
  }

  /** One full round: as many standard switches as the sequence has sides return to the
      same side and complete exactly one cycle. */
  lemma FullRound(c: Controller, now: int)
    requires Inv(c) && Distinct(c.cfg.sequence)
    ensures var r := Switches(c, |c.cfg.sequence|, now);
            Inv(r) && r.current == c.current && r.index == c.index && r.totalCycles == c.totalCycles + 1
  {
    SwitchesWithinRound(c, |c.cfg.sequence|, now);
    CyclesWithinRound(c, |c.cfg.sequence|, now);
    SwitchesPreserveInv(c, |c.cfg.sequence|, now);
  }

  /** Division by n of a number below 2n. */
  lemma DivModSmall(x: int, n: int)
    requires 0 < n && 0 <= x < 2 * n
    ensures x % n == (if x < n then x else x - n)
    ensures x / n == (if x < n then 0 else 1)
  {
    if x < n {
      assert x == 0 * n + x;
    } else {
      assert x == 1 * n + (x - n);
    }
  }

  /** The only multiple of n strictly between -n and n is zero. */
  lemma SmallMultiple(k: int, n: int)
    requires 0 < n && -n < k * n < n
    ensures k == 0
  {
    MultipleBounds(k, n);
  }

  /** A nonzero multiple of n is at least n away from zero. */
  lemma MultipleBounds(k: int, n: int)
    requires 0 < n
    ensures k >= 1 ==> k * n >= n
    ensures k <= -1 ==> k * n <= -n
  {
    if k >= 1 {
      assert k * n == (k - 1) * n + n;
      assert (k - 1) * n >= 0;
    } else if k <= -1 {
      assert k * n == (k + 1) * n - n;
      assert (k + 1) * n <= 0;
    }
  }

  /** Shifting by n moves the quotient by one and keeps the remainder. */
  lemma DivModShift(x: int, n: int)
    requires 0 < n && n <= x
    ensures x % n == (x - n) % n && x / n == (x - n) / n + 1
  {
    var q, r := (x - n) / n, (x - n) % n;
    var q2, r2 := x / n, x % n;
    assert x - n == q * n + r && 0 <= r < n;
    assert x == q2 * n + r2 && 0 <= r2 < n;
    var k := q + 1 - q2;
    assert k * n == r2 - r;
    SmallMultiple(k, n);
  }

  /** The arithmetic of one step of the index: advancing i by one (wrapping at n) and then
      by j - 1 is advancing it by j, and the wrap carries one into the quotient. */
  lemma AdvanceArith(i: int, j: int, n: int, i1: int)
    requires 0 <= i < n && 1 <= j && i1 == (if i + 1 < n then i + 1 else 0)
    ensures (i1 + (j - 1)) % n == (i + j) % n
    ensures (i + j) / n == (i1 + (j - 1)) / n + (if i + 1 == n then 1 else 0)
  {
    if i + 1 == n {
      DivModShift(i + j, n);
    }
  }

  /** The index reached from i after j steps around a ring of n, one NextIndex at a time. */
  function Walk(i: int, j: nat, n: int): int
    requires n > 0
    decreases j
  {
    if j == 0 then i else Walk(NextIndex(i, n), j - 1, n)
  }

  /** The number of times those j steps wrap from the last position back to the first. */
  function Wraps(i: int, j: nat, n: int): int
    requires n > 0
    decreases j
  {
    if j == 0 then 0 else (if i + 1 == n then 1 else 0) + Wraps(NextIndex(i, n), j - 1, n)
  }

  /** Stepping around the ring is modular arithmetic: j steps from i reach (i + j) mod n
      after (i + j) div n wraps. */
  lemma {:induction false} WalkArith(i: int, j: nat, n: int)
    requires 0 <= i < n
    ensures Walk(i, j, n) == (i + j) % n && Wraps(i, j, n) == (i + j) / n
    decreases j
  {
    if j == 0 {
      DivModSmall(i, n);
    } else {
      var i1 := NextIndex(i, n);
      WalkArith(i1, j - 1, n);
      AdvanceArith(i, j, n, i1);
    }
  }

  /** j standard switches walk the index j steps around the sequence. */
  lemma {:induction false} SwitchesWalk(c: Controller, j: nat, now: int)
    requires |c.cfg.sequence| > 0 && 0 <= c.index < |c.cfg.sequence|
    ensures Switches(c, j, now).index == Walk(c.index, j, |c.cfg.sequence|)
    decreases j
  {
    if j > 0 {
      var c1 := SwitchToNext(c, now).0;
      assert c1.index == NextIndex(c.index, |c.cfg.sequence|) && c1.cfg == c.cfg;
      assert Switches(c, j, now) == Switches(c1, j - 1, now);
      SwitchesWalk(c1, j - 1, now);
    }
  }

  /** When the first side occurs only once, j standard switches complete one cycle per wrap. */
  lemma {:induction false} SwitchesWraps(c: Controller, j: nat, now: int)
    requires |c.cfg.sequence| > 0 && 0 <= c.index < |c.cfg.sequence| && StartsOnce(c.cfg.sequence)
    ensures Switches(c, j, now).totalCycles == c.totalCycles + Wraps(c.index, j, |c.cfg.sequence|)
    decreases j
  {
    if j > 0 {
      var c1 := SwitchToNext(c, now).0;
      assert c1.index == NextIndex(c.index, |c.cfg.sequence|) && c1.cfg == c.cfg;
      CycleStep(c, now);
      assert Switches(c, j, now) == Switches(c1, j - 1, now);
      SwitchesWraps(c1, j - 1, now);
    }
  }

  /** Sequence fidelity over any number of rounds: `j` standard switches from index i reach
      index (i + j) mod n. */
  lemma SwitchesAdvanceIndex(c: Controller, j: nat, now: int)
    requires |c.cfg.sequence| > 0 && 0 <= c.index < |c.cfg.sequence|
    ensures Switches(c, j, now).index == (c.index + j) % |c.cfg.sequence|
  {
    SwitchesWalk(c, j, now);
    WalkArith(c.index, j, |c.cfg.sequence|);
  }

  /** Cycle counting over any number of rounds: when the first side occurs only once, `j`
      standard switches from index i complete (i + j) div n cycles, one per wrap past the
      end of the sequence. */
  lemma SwitchesAdvanceCycles(c: Controller, j: nat, now: int)
    requires |c.cfg.sequence| > 0 && 0 <= c.index < |c.cfg.sequence| && StartsOnce(c.cfg.sequence)
    ensures Switches(c, j, now).totalCycles == c.totalCycles + (c.index + j) / |c.cfg.sequence|
  {
    SwitchesWraps(c, j, now);
    WalkArith(c.index, j, |c.cfg.sequence|);
  }

  /** Early clearance with the system's configuration: NORTH green from t = 0, two vehicles
      at t = 12 start the timer, and at t = 17 the signal switches to EAST. */
  lemma ScenarioEarlyClearance(counts: Counts)
    requires counts == [("NORTH", Bare(2)), ("EAST", Bare(9))]
    ensures var c0 := Init(DefaultConfig, 0);
            var r1 := Update(c0, counts, 12);
            && r1.Success? && r1.value.1.Continuing? && r1.value.0.lowTrafficStart == Some(12)
            && var r2 := Update(r1.value.0, counts, 17);
            && r2.Success? && r2.value.1 == Switched(North, East, 17, EarlyClearance, 0)
  {
  }

  /** Busy traffic with the system's configuration: a forced switch at t = 30. */
  lemma ScenarioMaxTime()
    ensures var c0 := Init(DefaultConfig, 0);
            var r := Update(c0, [("NORTH", Record(Some(10), Some(false)))], 30);
            r.Success? && r.value.1 == Switched(North, East, 30, MaxTimeReached, 0)
  {
  }

  /** An emergency on SOUTH at t = 5 preempts NORTH despite the minimum green. */
  lemma ScenarioEmergency()
    ensures var c0 := Init(DefaultConfig, 0);
            var r := Update(c0, [("NORTH", Bare(4)), ("SOUTH", Record(Some(1), Some(true)))], 5);
            r.Success? && r.value.1 == EmergencySwitch(North, South) && r.value.0.states[South] == Green
            && r.value.0.states[North] == Red
  {
  }
}

=== FILE: draws.dfy ===
/** Random draws as explicit inputs.  A draw is an arbitrary natural number (or a real
    for `random.random()`); these functions turn it into the value the corresponding
    Python `random` call would return, so every value the call can return is reachable
    and nothing else is. */
module Draws {

  /** `random.randint(lo, hi)`: a value of the closed range [lo, hi]. */
  function RandInt(lo: int, hi: int, draw: nat): (r: int)
    requires lo <= hi
    ensures lo <= r <= hi
  {
    lo + draw % (hi - lo + 1)
  }

  /** Every value of [lo, hi] is the result of some draw, so the abstraction loses no outcome. */
  lemma RandIntCovers(lo: int, hi: int, v: int)
    requires lo <= v <= hi
    ensures RandInt(lo, hi, v - lo) == v
  {
  }

  /** `random.choice(xs)`: one of the elements of a non-empty sequence. */
  function Choice<T>(xs: seq<T>, draw: nat): (r: T)
    requires |xs| > 0
    ensures r in xs
  {
    xs[draw % |xs|]
  }

  /** Sum of the first `n` weights: entry n - 1 of Python's cumulative-weight list. */
  function Cumulative(weights: seq<real>, n: nat): real
    requires n <= |weights|
  {
    if n == 0 then 0.0 else Cumulative(weights, n - 1) + weights[n - 1]
  }

  /** Index chosen by `random.choices(population, weights)[0]` when `random.random()`
      returned `u`: with x = u * total, the first index i < n - 1 whose cumulative weight
      exceeds x (bisect_right restricted to [0, n - 1]), else the last index. */
  function WeightedIndex(weights: seq<real>, u: real): (i: nat)
    requires |weights| > 0
    ensures i < |weights|
    ensures forall j :: 1 <= j <= i ==> Cumulative(weights, j) <= u * Cumulative(weights, |weights|)
    ensures i < |weights| - 1 ==> u * Cumulative(weights, |weights|) < Cumulative(weights, i + 1)
  {
    var x := u * Cumulative(weights, |weights|);
    ScanCumulative(weights, x, 0)
  }

  /** First index from `k` on (below the last) whose cumulative weight exceeds x. */
  function ScanCumulative(weights: seq<real>, x: real, k: nat): (i: nat)
    requires k < |weights|
    requires forall j :: 1 <= j <= k ==> Cumulative(weights, j) <= x
    ensures k <= i < |weights|
    ensures forall j :: 1 <= j <= i ==> Cumulative(weights, j) <= x
    ensures i < |weights| - 1 ==> x < Cumulative(weights, i + 1)
    decreases |weights| - k
  {
    if k == |weights| - 1 then k
    else if x < Cumulative(weights, k + 1) then k
    else ScanCumulative(weights, x, k + 1)
  }
}

=== FILE: engine.dfy ===
/** The stand-alone demo engine (SmartTrafficSignal): a simulated camera produces counts,
    and the green time is a weighted sum of them clamped to the configured bounds, with a
    fixed fail-safe time when the camera fails and a short fixed time for an emergency. */
module Engine {
  import opened Options
  import Draws

  /** Green time when no counts are available. */
  const FailSafeTime: int := 30
  /** Green time when an emergency vehicle is reported. */
  const EmergencyTime: int := 10

  /** Seconds per vehicle of each kind. */
  const SecondsPerCar: int := 2
  const SecondsPerTruck: int := 3
  const SecondsPerBike: int := 1

  datatype Signal = Signal(minGreenTime: int, maxGreenTime: int, cameraWorking: bool)

  /** The counts dictionary the camera returns. */
  datatype Counts = Counts(cars: int, trucks: int, bikes: int, emergency: bool)

  /** The draws one camera reading consumes: three `randint` draws and one `choice` draw. */
  datatype CameraDraw = CameraDraw(cars: nat, trucks: nat, bikes: nat, ambulance: nat)

  /** Construction: bounds 5 and 60 seconds, camera working. */
  function Init(): (s: Signal)
    ensures s.minGreenTime == 5 && s.maxGreenTime == 60 && s.cameraWorking
  {
    Signal(5, 60, true)
  }

  /** The list one emergency flag is chosen from: one true in five. */
  const AmbulanceChoices: seq<bool> := [true, false, false, false, false]

  /** `detect_vehicles`: no reading when the camera is off; otherwise up to 20 cars, up to
      5 trucks and up to 10 bikes. */
  function DetectVehicles(s: Signal, d: CameraDraw): (r: Option<Counts>)
    ensures r.None? <==> !s.cameraWorking
    ensures r.Some? ==> 0 <= r.value.cars <= 20 && 0 <= r.value.trucks <= 5 && 0 <= r.value.bikes <= 10
  {
    if !s.cameraWorking then None
    else
      Some(Counts(
        Draws.RandInt(0, 20, d.cars),
        Draws.RandInt(0, 5, d.trucks),
        Draws.RandInt(0, 10, d.bikes),
        Draws.Choice(AmbulanceChoices, d.ambulance)))
  }

  /** The weighted demand of a reading, in seconds. */
  function Demand(c: Counts): int {
    SecondsPerCar * c.cars + SecondsPerTruck * c.trucks + SecondsPerBike * c.bikes
  }

  /** `calculate_duration`: the fail-safe time without counts, the emergency time on an
      emergency, otherwise the demand raised to the minimum and capped at the maximum
      (the minimum is tested first). */
  function CalculateDuration(s: Signal, counts: Option<Counts>): (r: int)
    ensures counts.None? ==> r == FailSafeTime
    ensures counts.Some? && counts.value.emergency ==> r == EmergencyTime
    ensures counts.Some? && !counts.value.emergency ==>
      var t := Demand(counts.value);
      && (t < s.minGreenTime ==> r == s.minGreenTime)
      && (s.minGreenTime <= t <= s.maxGreenTime ==> r == t)
      && (s.minGreenTime <= t && s.maxGreenTime < t ==> r == s.maxGreenTime)
  {
    match counts
    case None => FailSafeTime
    case Some(c) =>
      if c.emergency then EmergencyTime
      else
        var total := Demand(c);
        if total < s.minGreenTime then s.minGreenTime
        else if total > s.maxGreenTime then s.maxGreenTime
        else total
  }
}

/** Properties of the demo engine. */
module EngineProperties {
  import opened Options
  import opened Engine
  import Draws

  /** With ordered bounds a regular reading's green time lies within them. */
  lemma RegularWithinBounds(s: Signal, c: Counts)
    requires s.minGreenTime <= s.maxGreenTime && !c.emergency
    ensures s.minGreenTime <= CalculateDuration(s, Some(c)) <= s.maxGreenTime
  {
  }

  /** With the constructor's bounds every outcome, fail-safe and emergency included, lies in
      [5, 60]. */
  lemma DefaultsWithinBounds(counts: Option<Counts>)
    ensures 5 <= CalculateDuration(Init(), counts) <= 60
  {
  }

  /** With ordered bounds, more vehicles of any kind never shorten a regular green time.
      (With a minimum above the maximum a short demand gets the minimum and a long one the
      smaller maximum.) */
  lemma DurationMonotone(s: Signal, a: Counts, b: Counts)
    requires s.minGreenTime <= s.maxGreenTime
    requires !a.emergency && !b.emergency
    requires a.cars <= b.cars && a.trucks <= b.trucks && a.bikes <= b.bikes
    ensures CalculateDuration(s, Some(a)) <= CalculateDuration(s, Some(b))
  {
  }

  /** Every reading the camera can produce arises from some draw. */
  lemma CameraCovers(s: Signal, cars: int, trucks: int, bikes: int, emergency: bool)
    requires s.cameraWorking
    requires 0 <= cars <= 20 && 0 <= trucks <= 5 && 0 <= bikes <= 10
    ensures DetectVehicles(s, CameraDraw(cars, trucks, bikes, if emergency then 0 else 1))
            == Some(Counts(cars, trucks, bikes, emergency))
  {
    Draws.RandIntCovers(0, 20, cars);
    Draws.RandIntCovers(0, 5, trucks);
    Draws.RandIntCovers(0, 10, bikes);
    assert Draws.Choice(AmbulanceChoices, 0) == AmbulanceChoices[0];
    assert Draws.Choice(AmbulanceChoices, 1) == AmbulanceChoices[1];
  }

  /** The worked numbers: 10 cars, 2 trucks and 5 bikes need 31 seconds; 40 cars are capped
      at 60; one bike is raised to 5. */
  lemma ScenarioDurations()
    ensures CalculateDuration(Init(), Some(Counts(10, 2, 5, false))) == 31
    ensures CalculateDuration(Init(), Some(Counts(40, 0, 0, false))) == 60
    ensures CalculateDuration(Init(), Some(Counts(0, 0, 1, false))) == 5
    ensures CalculateDuration(Init(), Some(Counts(40, 0, 0, true))) == 10
  {
  }
}

=== FILE: fixed_controller.dfy ===
/** The fixed-timer signal controller of the simulator (SignalController).

    The sides take turns in the order NORTH, SOUTH, EAST, WEST.  The active side stays
    GREEN for `greenDuration`, then YELLOW for `yellowDuration`; it then goes RED and the
    next side goes GREEN.  Every other side is RED throughout.  The wall clock is the
    explicit argument `now`. */
module FixedController {
  import opened Options
  import opened Sides

  /** The three lamp states of the simulator's signals. */
  datatype SignalState = Red | Yellow | Green

  /** The turn order of the controller's side list. */
  const Order: seq<Side> := [North, South, East, West]

  /** Phase lengths from the simulator's configuration. */
  const GreenLightDuration: int := 10
  const YellowLightDuration: int := 3

  datatype Controller = Controller(
    index: int,
    current: Side,
    signals: map<Side, SignalState>,
    lastChange: int,
    greenDuration: int,
    yellowDuration: int)

  /** The side that follows `s` in the turn order (an independent statement of the order). */
  function Successor(s: Side): Side {
    match s
    case North => South
    case South => East
    case East => West
    case West => North
  }

  /** Safety invariant: every side has a lamp, the active side is the list entry at the
      index and is GREEN or YELLOW, every other side is RED, and the phase lengths are
      not negative. */
  ghost predicate Inv(c: Controller) {
    && 0 <= c.index < |Order|
    && c.greenDuration >= 0 && c.yellowDuration >= 0
    && c.current == Order[c.index]
    && (forall s: Side :: s in c.signals)
    && c.signals[c.current] != Red
    && (forall s :: s in c.signals && s != c.current ==> c.signals[s] == Red)
  }

  /** Construction: NORTH is GREEN and the other three sides RED. */
  function Init(now: int): (c: Controller)
    ensures c.index == 0 && c.current == North
    ensures c.signals.Keys == {North, South, East, West} && c.signals[North] == Green
    ensures forall s :: s in c.signals && s != North ==> c.signals[s] == Red
    ensures c.lastChange == now && c.greenDuration == GreenLightDuration && c.yellowDuration == YellowLightDuration
  {
    var signals := map[North := Red, South := Red, East := Red, West := Red];
    Controller(0, Order[0], signals[Order[0] := Green], now, GreenLightDuration, YellowLightDuration)
  }

  /** One tick.  A GREEN side whose green time has elapsed turns YELLOW; a YELLOW side whose
      yellow time has elapsed turns RED and hands GREEN to the next side of the list; both
      restart the phase timer.  Otherwise nothing changes.  The program reads the active
      side's lamp with a subscript, so it must be present. */
  function Update(c: Controller, now: int): (r: Controller)
    requires c.current in c.signals
    ensures r.greenDuration == c.greenDuration && r.yellowDuration == c.yellowDuration
    ensures c.signals[c.current] == Green && now - c.lastChange >= c.greenDuration ==>
      r == c.(signals := c.signals[c.current := Yellow], lastChange := now)
    ensures c.signals[c.current] == Yellow && now - c.lastChange >= c.yellowDuration ==>
      && r.index == NextIndex(c.index, |Order|) && r.current == Order[r.index]
      && r.signals == c.signals[c.current := Red][r.current := Green]
      && r.lastChange == now
    ensures (c.signals[c.current] == Red
             || (c.signals[c.current] == Green && now - c.lastChange < c.greenDuration)
             || (c.signals[c.current] == Yellow && now - c.lastChange < c.yellowDuration)) ==> r == c
  {
    var elapsed := now - c.lastChange;
    var state := c.signals[c.current];
    if state == Green && elapsed >= c.greenDuration then
      c.(signals := c.signals[c.current := Yellow], lastChange := now)
    else if state == Yellow && elapsed >= c.yellowDuration then
      var i := NextIndex(c.index, |Order|);
      var next := Order[i];
      c.(index := i, current := next, signals := c.signals[c.current := Red][next := Green], lastChange := now)
    else c
  }

  /** `get_signal_state`: the stored lamp, RED for a name that is not a key. */
  function GetSignalState(c: Controller, name: string): (r: SignalState)
    ensures (forall s :: s in c.signals ==> Name(s) != name) ==> r == Red
    ensures forall s :: s in c.signals && Name(s) == name ==> r == c.signals[s]
  {
    match Parse(name)
    case Some(s) => if s in c.signals then c.signals[s] else Red
    case None => Red
  }

  /** `is_green`: true exactly when the name is a key whose lamp is GREEN. */
  function IsGreen(c: Controller, name: string): (r: bool)
    ensures r <==> exists s :: s in c.signals && Name(s) == name && c.signals[s] == Green
  {
    match Parse(name)
    case Some(s) => s in c.signals && c.signals[s] == Green
    case None => false
  }

  /** `is_red`: true exactly when the name is a key whose lamp is RED, so an unknown name
      is not red although `get_signal_state` reports it RED. */
  function IsRed(c: Controller, name: string): (r: bool)
    ensures r <==> exists s :: s in c.signals && Name(s) == name && c.signals[s] == Red
  {
    match Parse(name)
    case Some(s) => s in c.signals && c.signals[s] == Red
    case None => false
  }

  /** `get_remaining_time`: time left in the current GREEN or YELLOW phase, never negative,
      and 0 on a RED active side. */
  function RemainingTime(c: Controller, now: int): (r: int)
    requires c.current in c.signals
    ensures r >= 0
    ensures var elapsed := now - c.lastChange;
            match c.signals[c.current]
            case Green => (r > 0 <==> elapsed < c.greenDuration) && (r > 0 ==> elapsed + r == c.greenDuration)
            case Yellow => (r > 0 <==> elapsed < c.yellowDuration) && (r > 0 ==> elapsed + r == c.yellowDuration)
            case Red => r == 0
  {
    var elapsed := now - c.lastChange;
    match c.signals[c.current]
    case Green => if c.greenDuration - elapsed > 0 then c.greenDuration - elapsed else 0
    case Yellow => if c.yellowDuration - elapsed > 0 then c.yellowDuration - elapsed else 0
    case Red => 0
  }
}

=== FILE: fixed_properties.dfy ===
/** Properties of the fixed-timer controller: the invariant, the GREEN, YELLOW, next-GREEN
    phase order, the turn order, the lamp queries and the remaining-time bounds. */
module FixedProperties {
  import opened Sides
  import opened FixedController

  /** Sides whose lamp is not RED. */
  function NonRedSides(c: Controller): set<Side> {
    set s | s in c.signals && c.signals[s] != Red
  }

  /** Construction establishes the invariant. */
  lemma InitEstablishesInv(now: int)
    ensures Inv(Init(now))
  {
    var c := Init(now);
    forall s: Side ensures s in c.signals {
      match s
      case North =>
      case South =>
      case East =>
      case West =>
    }
  }

  /** Under the invariant exactly one side is not RED: the active one. */
  lemma OnlyCurrentNotRed(c: Controller)
    requires Inv(c)
    ensures NonRedSides(c) == {c.current}
  {
  }

  /** Every tick keeps the invariant. */
  lemma UpdatePreservesInv(c: Controller, now: int)
    requires Inv(c)
    ensures Inv(Update(c, now))
  {
  }

  /** The hand-over follows the list order: after a YELLOW phase the successor of the
      active side (NORTH, SOUTH, EAST, WEST, then NORTH again) becomes the GREEN side and
      the old side goes RED. */
  lemma HandOverFollowsOrder(c: Controller, now: int)
    requires Inv(c)
    requires c.signals[c.current] == Yellow && now - c.lastChange >= c.yellowDuration
    ensures var r := Update(c, now);
            && r.current == Successor(c.current)
            && r.signals[r.current] == Green && r.signals[c.current] == Red
            && r.lastChange == now
  {
  }

  /** One complete phase: a GREEN side whose green time is up turns YELLOW at `t1`, and
      once the yellow time is up at `t2` the next side of the order is GREEN and every
      other side RED. */
  lemma PhaseCycle(c: Controller, t1: int, t2: int)
    requires Inv(c)
    requires c.signals[c.current] == Green && t1 - c.lastChange >= c.greenDuration
    requires t2 - t1 >= c.yellowDuration
    ensures var c1 := Update(c, t1);
            var c2 := Update(c1, t2);
            && c1.current == c.current && c1.signals[c.current] == Yellow && c1.lastChange == t1
            && c2.current == Successor(c.current) && c2.signals[c2.current] == Green
            && (forall s :: s != c2.current ==> c2.signals[s] == Red)
            && c2.lastChange == t2
  {
    var c1 := Update(c, t1);
    UpdatePreservesInv(c, t1);
    HandOverFollowsOrder(c1, t2);
  }

  /** Four hand-overs visit every side once and come back: the turn order is a single cycle. */
  lemma OrderIsOneCycle(s: Side)
    ensures Successor(Successor(Successor(Successor(s)))) == s
    ensures {s, Successor(s), Successor(Successor(s)), Successor(Successor(Successor(s)))} == {North, South, East, West}
  {
  }

  /** Lamp queries on a side's own name agree with the stored lamp, so a YELLOW side is
      neither green nor red. */
  lemma QueriesAgreeWithState(c: Controller, s: Side)
    requires Inv(c)
    ensures IsGreen(c, Name(s)) <==> GetSignalState(c, Name(s)) == Green
    ensures IsRed(c, Name(s)) <==> GetSignalState(c, Name(s)) == Red
    ensures GetSignalState(c, Name(s)) == Yellow ==> !IsGreen(c, Name(s)) && !IsRed(c, Name(s))
  {
    ParseName(s);
  }

  /** A name that is not a side reads RED, but is neither red nor green for the predicates. */
  lemma UnknownNameQueries(c: Controller, name: string)
    requires Parse(name).None?
    ensures GetSignalState(c, name) == Red && !IsRed(c, name) && !IsGreen(c, name)
  {
  }

  /** With a non-negative elapsed time the remaining time lies between 0 and the length of
      the current phase. */
  lemma RemainingTimeBounds(c: Controller, now: int)
    requires Inv(c) && now >= c.lastChange
    ensures var r := RemainingTime(c, now);
            && 0 <= r
            && (c.signals[c.current] == Green ==> r <= c.greenDuration)
            && (c.signals[c.current] == Yellow ==> r <= c.yellowDuration)
  {
  }

  /** Phase timing with the system's configuration: NORTH turns YELLOW at t = 10 and SOUTH
      is GREEN at t = 13. */
  lemma ScenarioFirstHandOver()
    ensures Update(Init(0), 9) == Init(0)
    ensures var c1 := Update(Init(0), 10);
            var c2 := Update(c1, 13);
            && c1.signals[North] == Yellow
            && c2.current == South && c2.signals[South] == Green && c2.signals[North] == Red
  {
  }
}

=== FILE: intersection.dfy ===
/** The simulated intersection (Intersection): one queue per approach, a fixed-timer
    controller, and per-update spawning, moving and removal of crossed vehicles with
    crossing statistics.  A vehicle stays in the queue of the side it spawned on, even
    after it has turned. */
module Intersections {
  import opened Options
  import opened Sides
  import opened Vehicles
  import opened TrafficGenerator
  import FixedController

  /** One value per approach. */
  datatype PerSide<T> = PerSide(north: T, south: T, east: T, west: T) {
    function Get(s: Side): T {
      match s
      case North => north
      case South => south
      case East => east
      case West => west
    }

    function Set(s: Side, value: T): (r: PerSide<T>)
      ensures r.Get(s) == value
      ensures forall t :: t != s ==> r.Get(t) == Get(t)
    {
      match s
      case North => this.(north := value)
      case South => this.(south := value)
      case East => this.(east := value)
      case West => this.(west := value)
    }
  }

  /** The per-side values of a function of the side. */
  function Build<T>(f: Side -> T): (r: PerSide<T>)
    ensures forall s :: r.Get(s) == f(s)
  {
    PerSide(f(North), f(South), f(East), f(West))
  }

  type Queues = PerSide<seq<Vehicle>>

  /** The order of the program's queue dictionary, in which every pass visits the sides. */
  const SideOrder: seq<Side> := [North, South, East, West]

  /** Crossings counted per vehicle type. */
  datatype TypeCounts = TypeCounts(car: nat, truck: nat, bus: nat) {
    function Total(): nat { car + truck + bus }

    function Add(t: VehicleType): (r: TypeCounts)
      ensures r.Total() == Total() + 1
      ensures r.car == car + (if t == Car then 1 else 0)
      ensures r.truck == truck + (if t == Truck then 1 else 0)
      ensures r.bus == bus + (if t == Bus then 1 else 0)
    {
      match t
      case Car => this.(car := car + 1)
      case Truck => this.(truck := truck + 1)
      case Bus => this.(bus := bus + 1)
    }

    function Plus(o: TypeCounts): TypeCounts {
      TypeCounts(car + o.car, truck + o.truck, bus + o.bus)
    }
  }

  datatype Intersection = Intersection(
    signals: FixedController.Controller,
    queues: Queues,
    window: Window,
    totalCrossed: nat,
    crossedByType: TypeCounts,
    usedPlates: set<string>)

  /** Construction: a fresh controller, four empty queues and zero statistics. */
  function Init(now: int): (x: Intersection)
    ensures forall s :: x.queues.Get(s) == []
    ensures x.totalCrossed == 0 && x.crossedByType == TypeCounts(0, 0, 0)
    ensures x.signals == FixedController.Init(now) && x.window == DefaultWindow
    ensures x.usedPlates == {}
  {
    Intersection(FixedController.Init(now), PerSide([], [], [], []), DefaultWindow, 0, TypeCounts(0, 0, 0), {})
  }

  /** `set_window_size`. */
  function SetWindowSize(x: Intersection, width: int, height: int): (r: Intersection)
    ensures r == x.(window := Window(width, height))
  {
    x.(window := Window(width, height))
  }

  /** Spawning on one side: the generator sees the queue's length; a new vehicle is
      re-placed for the intersection's window and appended at the back. */
  function SpawnSide(x: Intersection, side: Side, d: SpawnDraw): (r: Intersection)
    ensures r == x.(queues := r.queues, usedPlates := r.usedPlates)
    ensures forall t :: t != side ==> r.queues.Get(t) == x.queues.Get(t)
    ensures var q := x.queues.Get(side);
            match GenerateVehicle(side, |q|, d, x.usedPlates)
            case None => r == x
            case Some((v, used)) =>
              && r.queues.Get(side) == q + [Replace(v, x.window)]
              && r.usedPlates == used
  {
    var q := x.queues.Get(side);
    match GenerateVehicle(side, |q|, d, x.usedPlates)
    case None => x
    case Some((v, used)) => x.(queues := x.queues.Set(side, q + [Replace(v, x.window)]), usedPlates := used)
  }

  /** The spawn pass over `sides` in order. */
  function SpawnAll(x: Intersection, sides: seq<Side>, draws: PerSide<SpawnDraw>): (r: Intersection)
    ensures r == x.(queues := r.queues, usedPlates := r.usedPlates)
    ensures forall t :: t !in sides ==> r.queues.Get(t) == x.queues.Get(t)
    decreases |sides|
  {
    if |sides| == 0 then x
    else SpawnAll(SpawnSide(x, sides[0], draws.Get(sides[0])), sides[1..], draws)
  }

  /** What one vehicle does in the move pass: it stays if it should stop, else it moves. */
  function Step(v: Vehicle, ahead: seq<Vehicle>, signalIsRed: bool, w: Window): Vehicle {
    if ShouldStop(v, signalIsRed, ahead, w) then v else Move(v, w)
  }

  /** A left-to-right pass in which each element of `rest` is replaced by `f` of itself and
      of the already-processed prefix before it (`done` is processed already). */
  function PrefixPass<T>(done: seq<T>, rest: seq<T>, f: (T, seq<T>) -> T): (r: seq<T>)
    ensures |r| == |done| + |rest|
    ensures r[..|done|] == done
    ensures forall i :: |done| <= i < |r| ==> r[i] == f(rest[i - |done|], r[..i])
    decreases |rest|
  {
    if |rest| == 0 then done
    else
      var next := done + [f(rest[0], done)];
      var r := PrefixPass(next, rest[1..], f);
      assert r[..|done|] == done by {
        assert r[..|done|] == r[..|next|][..|done|];
      }
      assert r[|done|] == f(rest[0], r[..|done|]) by {
        assert r[|done|] == r[..|next|][|done|];
      }
      forall i | |done| < i < |r|
        ensures r[i] == f(rest[i - |done|], r[..i])
      {
        assert rest[1..][i - |next|] == rest[i - |done|];
      }
      r
  }

  /** The move pass over a queue: vehicle i sees as vehicles ahead exactly the queue's
      first i vehicles as they are after their own step. */
  function MoveLane(q: seq<Vehicle>, signalIsRed: bool, w: Window): (r: seq<Vehicle>)
    ensures |r| == |q|
    ensures forall i :: 0 <= i < |q| ==> r[i] == Step(q[i], r[..i], signalIsRed, w)
  {
    PrefixPass([], q, (v, ahead) => Step(v, ahead, signalIsRed, w))
  }

  /** A side's queue after the move pass, with the red test of that side. */
  function MovedLane(x: Intersection, signals: FixedController.Controller, s: Side): seq<Vehicle> {
    MoveLane(x.queues.Get(s), FixedController.IsRed(signals, Name(s)), x.window)
  }

  /** The move pass over all four queues. */
  function MoveAll(x: Intersection, signals: FixedController.Controller): (r: Queues)
    ensures forall s :: r.Get(s) == MovedLane(x, signals, s)
  {
    Build(s => MovedLane(x, signals, s))
  }

  /** Crossed vehicles of a queue, counted per type. */
  function CountCrossed(q: seq<Vehicle>): TypeCounts
  {
    if |q| == 0 then TypeCounts(0, 0, 0)
    else
      var rest := CountCrossed(q[1..]);
      if q[0].crossed then rest.Add(q[0].vtype) else rest
  }

  /** The order-preserving filter of vehicles that have not crossed. */
  function Survivors(q: seq<Vehicle>): (r: seq<Vehicle>)
    ensures forall v :: v in r ==> v in q && !v.crossed
    ensures forall v :: v in q && !v.crossed ==> v in r
    ensures |r| <= |q|
  {
    if |q| == 0 then []
    else if q[0].crossed then Survivors(q[1..])
    else [q[0]] + Survivors(q[1..])
  }

  /** `_remove_crossed_vehicles` on one side. */
  function RemoveSide(x: Intersection, side: Side): (r: Intersection)
    ensures r.totalCrossed == x.totalCrossed + CountCrossed(x.queues.Get(side)).Total()
    ensures r.crossedByType == x.crossedByType.Plus(CountCrossed(x.queues.Get(side)))
    ensures r.queues == x.queues.Set(side, Survivors(x.queues.Get(side)))
    ensures forall t :: t != side ==> r.queues.Get(t) == x.queues.Get(t)
    ensures r.signals == x.signals && r.window == x.window && r.usedPlates == x.usedPlates
  {
    var q := x.queues.Get(side);
    var counted := CountCrossed(q);
    x.(totalCrossed := x.totalCrossed + counted.Total(),
       crossedByType := x.crossedByType.Plus(counted),
       queues := x.queues.Set(side, Survivors(q)))
  }

  /** `_remove_crossed_vehicles` over `sides` in order. */
  function RemoveAll(x: Intersection, sides: seq<Side>): (r: Intersection)
    ensures r.signals == x.signals && r.window == x.window && r.usedPlates == x.usedPlates
    decreases |sides|
  {
    if |sides| == 0 then x else RemoveAll(RemoveSide(x, sides[0]), sides[1..])
  }

  /** The spawn pass followed by the move pass, under the lamps the intersection holds. */
  function SpawnAndMove(x: Intersection, draws: PerSide<SpawnDraw>): (r: Intersection)
    ensures r.signals == x.signals && r.window == x.window
    ensures r.totalCrossed == x.totalCrossed && r.crossedByType == x.crossedByType
  {
    var spawned := SpawnAll(x, SideOrder, draws);
    spawned.(queues := MoveAll(spawned, x.signals))
  }

  /** `update`: tick the controller, spawn on every side, run the move pass with the new
      lamps, then remove the crossed vehicles.  The controller reads its active side's lamp
      with a subscript, so that lamp must exist. */
  function Update(x: Intersection, now: int, draws: PerSide<SpawnDraw>): (r: Intersection)
    requires x.signals.current in x.signals.signals
    ensures r.signals == FixedController.Update(x.signals, now) && r.window == x.window
  {
    var signals := FixedController.Update(x.signals, now);
    RemoveAll(SpawnAndMove(x.(signals := signals), draws), SideOrder)
  }

  /** `get_all_vehicles`: the queues concatenated in dictionary order. */
  function AllVehicles(x: Intersection): (r: seq<Vehicle>)
    ensures forall v :: v in r <==> exists s :: v in x.queues.Get(s)
    ensures forall s :: |x.queues.Get(s)| <= |r|
    ensures r[..|x.queues.Get(North)|] == x.queues.Get(North)
  {
    var r := x.queues.north + x.queues.south + x.queues.east + x.queues.west;
    assert r[..|x.queues.north|] == x.queues.north;
    forall v | v in r ensures exists s :: v in x.queues.Get(s) {
      if v in x.queues.north { assert v in x.queues.Get(North); }
      else if v in x.queues.south { assert v in x.queues.Get(South); }
      else if v in x.queues.east { assert v in x.queues.Get(East); }
      else { assert v in x.queues.Get(West); }
    }
    r
  }

  /** `get_vehicle_count`: the length of a side's queue; a name that is not a side raises
      `KeyError`, modelled as None. */
  function VehicleCount(x: Intersection, name: string): (r: Option<nat>)
    ensures r.None? <==> forall s: Side :: Name(s) != name
    ensures forall s :: Name(s) == name ==> r == Some(|x.queues.Get(s)|)
  {
    match Parse(name)
    case None => None
    case Some(s) => Some(|x.queues.Get(s)|)
  }

  /** `get_total_vehicle_count`: the sum of the queue lengths. */
  function TotalVehicleCount(x: Intersection): (n: nat)
    ensures n == |AllVehicles(x)|
    ensures forall s :: |x.queues.Get(s)| <= n
  {
    |x.queues.north| + |x.queues.south| + |x.queues.east| + |x.queues.west|
  }
}

=== FILE: intersection_properties.dfy ===
/** Properties of the intersection: spawning appends at most one vehicle per side at the
    back of its queue and never beyond capacity, the move pass sees exactly the processed
    prefix, removal conserves vehicles and keeps the statistics consistent, and an update
    keeps the intersection's invariant. */
module IntersectionProperties {
  import opened Options
  import opened Sides
  import opened Vehicles
  import opened TrafficGenerator
  import opened Intersections
  import FixedController

  /** A vehicle as the spawn pass puts it at queue position `p` of side `s`. */
  predicate NewArrival(v: Vehicle, s: Side, p: int, w: Window) {
    && v.side == s && v.originalSide == s && v.position == p
    && (v.x, v.y) == Place(s, p, w)
    && !v.crossed && !v.crossedSignal && !v.isTurning
    && p < MaxVehiclesPerSide
  }

  /** `q'` is `q`, or `q` with one new arrival at the back. */
  predicate SpawnedOnto(q: seq<Vehicle>, q': seq<Vehicle>, s: Side, w: Window) {
    q' == q || (|q'| == |q| + 1 && q'[..|q|] == q && NewArrival(q'[|q|], s, |q|, w))
  }

  /** A queue within capacity whose vehicles were all spawned on side `s`. */
  predicate FromSide(q: seq<Vehicle>, s: Side) {
    && |q| <= MaxVehiclesPerSide
    && forall i :: 0 <= i < |q| ==> q[i].originalSide == s
  }

  /** Well-formed queue of side `s` between updates: within capacity, every vehicle
      spawned on `s`, and no crossed vehicle left in it. */
  predicate LaneOk(q: seq<Vehicle>, s: Side) {
    && FromSide(q, s)
    && forall i :: 0 <= i < |q| ==> !q[i].crossed
  }

  /** The intersection's invariant: the controller's invariant, every queue well formed,
      and the crossing total equal to the sum of the per-type counters. */
  ghost predicate Inv(x: Intersection) {
    && FixedController.Inv(x.signals)
    && (forall s :: LaneOk(x.queues.Get(s), s))
    && x.totalCrossed == x.crossedByType.Total()
  }

  predicate NoRepeats(sides: seq<Side>) {
    forall i, j :: 0 <= i < j < |sides| ==> sides[i] != sides[j]
  }

  /** Without repeats, the head does not recur and the tail has no repeats either. */
  lemma NoRepeatsTail(sides: seq<Side>)
    requires |sides| > 0 && NoRepeats(sides)
    ensures sides[0] !in sides[1..] && NoRepeats(sides[1..])
  {
    forall i, j | 0 <= i < j < |sides[1..]| ensures sides[1..][i] != sides[1..][j] {
      assert sides[1..][i] == sides[i + 1] && sides[1..][j] == sides[j + 1];
    }
  }

  /** Spawning on one side appends at most one new arrival to that side's queue. */
  lemma SpawnSideEffect(x: Intersection, side: Side, d: SpawnDraw)
    ensures SpawnedOnto(x.queues.Get(side), SpawnSide(x, side, d).queues.Get(side), side, x.window)
  {
    var q := x.queues.Get(side);
    match GenerateVehicle(side, |q|, d, x.usedPlates)
    case None =>
    case Some((v, used)) =>
      var q' := SpawnSide(x, side, d).queues.Get(side);
      assert q'[..|q|] == q;
  }

  /** The spawn pass over distinct sides appends at most one new arrival per side. */
  lemma {:induction false} SpawnAllEffect(x: Intersection, sides: seq<Side>, draws: PerSide<SpawnDraw>, s: Side)
    requires NoRepeats(sides) && s in sides
    ensures SpawnedOnto(x.queues.Get(s), SpawnAll(x, sides, draws).queues.Get(s), s, x.window)
    decreases |sides|
  {
    NoRepeatsTail(sides);
    if sides[0] == s {
      SpawnSideEffect(x, s, draws.Get(s));
    } else {
      SpawnAllEffect(SpawnSide(x, sides[0], draws.Get(sides[0])), sides[1..], draws, s);
    }
  }

  /** A spawn keeps a well-formed queue within capacity and of one side; the new arrival
      is only added below capacity. */
  lemma SpawnKeepsFromSide(q: seq<Vehicle>, q': seq<Vehicle>, s: Side, w: Window)
    requires FromSide(q, s) && SpawnedOnto(q, q', s, w)
    ensures FromSide(q', s)
  {
    if q' != q {
      forall i | 0 <= i < |q'| ensures q'[i].originalSide == s {
        if i < |q| { assert q'[i] == q'[..|q|][i]; }
      }
    }
  }

  /** The move pass keeps every vehicle's identity, type and spawn side, in place. */
  lemma MoveLaneKeepsIdentity(q: seq<Vehicle>, red: bool, w: Window)
    ensures var r := MoveLane(q, red, w);
            forall i :: 0 <= i < |q| ==>
              r[i].id == q[i].id && r[i].vtype == q[i].vtype && r[i].originalSide == q[i].originalSide
  {
  }

  /** In the move pass vehicle i stays exactly when it should stop behind the processed
      prefix, and otherwise makes one move. */
  lemma MoveLaneSteps(q: seq<Vehicle>, red: bool, w: Window, i: int)
    requires 0 <= i < |q|
    ensures var r := MoveLane(q, red, w);
            && (ShouldStop(q[i], red, r[..i], w) ==> r[i] == q[i])
            && (!ShouldStop(q[i], red, r[..i], w) ==> r[i] == Move(q[i], w))
  {
    var r := MoveLane(q, red, w);
    assert r[i] == Step(q[i], r[..i], red, w);
  }

  /** Removal conserves vehicles: every vehicle of a queue either survives or is counted. */
  lemma {:induction false} RemovalConserves(q: seq<Vehicle>)
    ensures |Survivors(q)| + CountCrossed(q).Total() == |q|
  {
    if |q| > 0 {
      RemovalConserves(q[1..]);
      var rest := CountCrossed(q[1..]);
      if q[0].crossed {
        assert CountCrossed(q) == rest.Add(q[0].vtype);
        assert Survivors(q) == Survivors(q[1..]);
      } else {
        assert CountCrossed(q) == rest;
        assert Survivors(q) == [q[0]] + Survivors(q[1..]);
      }
    }
  }

  /** The filter keeps every vehicle that has not crossed as many times as it occurs, and
      no crossed vehicle. */
  lemma {:induction false} SurvivorsCount(q: seq<Vehicle>)
    ensures forall v :: multiset(Survivors(q))[v] == if v.crossed then 0 else multiset(q)[v]
  {
    if |q| > 0 {
      SurvivorsCount(q[1..]);
      assert q == [q[0]] + q[1..];
      assert multiset(q) == multiset{q[0]} + multiset(q[1..]);
    }
  }

  /** Each vehicle of a queue as the pair (has crossed, type), position by position. */
  function Tags(q: seq<Vehicle>): (r: seq<(bool, VehicleType)>)
    ensures |r| == |q|
    ensures forall i :: 0 <= i < |q| ==> r[i] == (q[i].crossed, q[i].vtype)
  {
    if |q| == 0 then [] else [(q[0].crossed, q[0].vtype)] + Tags(q[1..])
  }

  /** Each per-type counter of a queue is the number of positions holding a crossed
      vehicle of that type. */
  lemma {:induction false} CountCrossedByType(q: seq<Vehicle>)
    ensures CountCrossed(q).car == multiset(Tags(q))[(true, Car)]
    ensures CountCrossed(q).truck == multiset(Tags(q))[(true, Truck)]
    ensures CountCrossed(q).bus == multiset(Tags(q))[(true, Bus)]
  {
    if |q| > 0 {
      CountCrossedByType(q[1..]);
      var t := (q[0].crossed, q[0].vtype);
      assert Tags(q) == [t] + Tags(q[1..]);
      assert multiset(Tags(q)) == multiset{t} + multiset(Tags(q[1..]));
    }
  }

  /** Without crossed vehicles the filter keeps the queue as it is and counts nothing. */
  lemma {:induction false} SurvivorsOfUncrossed(q: seq<Vehicle>)
    requires forall i :: 0 <= i < |q| ==> !q[i].crossed
    ensures Survivors(q) == q && CountCrossed(q) == TypeCounts(0, 0, 0)
  {
    if |q| > 0 {
      SurvivorsOfUncrossed(q[1..]);
    }
  }

  /** The filter turns a queue of one side within capacity into a well-formed queue. */
  lemma SurvivorsLaneOk(q: seq<Vehicle>, s: Side)
    requires FromSide(q, s)
    ensures LaneOk(Survivors(q), s)
  {
    RemovalConserves(q);
    var r := Survivors(q);
    forall i | 0 <= i < |r| ensures r[i].originalSide == s && !r[i].crossed {
      assert r[i] in r;
    }
  }

  /** Adding per-type counts adds their totals. */
  lemma PlusTotal(a: TypeCounts, b: TypeCounts)
    ensures a.Plus(b).Total() == a.Total() + b.Total()
  {
  }

  /** The removal pass grows the crossing total and the per-type counters together, so
      their agreement is kept. */
  lemma {:induction false} RemoveAllCounts(x: Intersection, sides: seq<Side>)
    ensures var r := RemoveAll(x, sides);
            && r.totalCrossed - x.totalCrossed == r.crossedByType.Total() - x.crossedByType.Total()
            && r.totalCrossed >= x.totalCrossed
    decreases |sides|
  {
    if |sides| > 0 {
      PlusTotal(x.crossedByType, CountCrossed(x.queues.Get(sides[0])));
      RemoveAllCounts(RemoveSide(x, sides[0]), sides[1..]);
    }
  }

  /** The removal pass leaves the queues of sides it does not visit alone. */
  lemma {:induction false} RemoveAllFrame(x: Intersection, sides: seq<Side>, t: Side)
    requires t !in sides
    ensures RemoveAll(x, sides).queues.Get(t) == x.queues.Get(t)
    decreases |sides|
  {
    if |sides| > 0 {
      RemoveAllFrame(RemoveSide(x, sides[0]), sides[1..], t);
    }
  }

  /** The removal pass over distinct sides replaces every visited queue by its survivors. */
  lemma {:induction false} RemoveAllQueue(x: Intersection, sides: seq<Side>, s: Side)
    requires NoRepeats(sides) && s in sides
    ensures RemoveAll(x, sides).queues.Get(s) == Survivors(x.queues.Get(s))
    decreases |sides|
  {
    NoRepeatsTail(sides);
    if sides[0] == s {
      RemoveAllFrame(RemoveSide(x, s), sides[1..], s);
    } else {
      RemoveAllQueue(RemoveSide(x, sides[0]), sides[1..], s);
    }
  }

  /** Every side is in the pass order, once. */
  lemma SideOrderComplete(s: Side)
    ensures s in SideOrder && NoRepeats(SideOrder)
  {
  }

  /** Construction establishes the invariant. */
  lemma InitEstablishesInv(now: int)
    ensures Inv(Intersections.Init(now))
  {
    var x := Intersections.Init(now);
    var c := x.signals;
    forall s: Side ensures s in c.signals {
      match s
      case North =>
      case South =>
      case East =>
      case West =>
    }
  }

  /** The spawn pass keeps a side's queue within capacity and of that side. */
  lemma SpawnAllFromSide(x: Intersection, draws: PerSide<SpawnDraw>, s: Side)
    requires FromSide(x.queues.Get(s), s)
    ensures FromSide(SpawnAll(x, SideOrder, draws).queues.Get(s), s)
  {
    SideOrderComplete(s);
    SpawnAllEffect(x, SideOrder, draws, s);
    SpawnKeepsFromSide(x.queues.Get(s), SpawnAll(x, SideOrder, draws).queues.Get(s), s, x.window);
  }

  /** The move pass keeps a queue within capacity and of one side. */
  lemma MoveLaneFromSide(q: seq<Vehicle>, red: bool, w: Window, s: Side)
    requires FromSide(q, s)
    ensures FromSide(MoveLane(q, red, w), s)
  {
    MoveLaneKeepsIdentity(q, red, w);
  }

  /** One side through an update: a well-formed queue is spawned onto, moved and filtered
      into a well-formed queue again. */
  lemma UpdateKeepsLane(x: Intersection, now: int, draws: PerSide<SpawnDraw>, s: Side)
    requires x.signals.current in x.signals.signals
    requires LaneOk(x.queues.Get(s), s)
    ensures LaneOk(Intersections.Update(x, now, draws).queues.Get(s), s)
  {
    var signals := FixedController.Update(x.signals, now);
    var spawned := SpawnAll(x.(signals := signals), SideOrder, draws);
    var moved := SpawnAndMove(x.(signals := signals), draws);
    SpawnAllFromSide(x.(signals := signals), draws, s);
    MoveLaneFromSide(spawned.queues.Get(s), FixedController.IsRed(signals, Name(s)), spawned.window, s);
    SurvivorsLaneOk(moved.queues.Get(s), s);
    SideOrderComplete(s);
    RemoveAllQueue(moved, SideOrder, s);
  }

  /** The fixed-timer controller's invariant is kept by its tick. */
  lemma FixedPreservesInv(c: FixedController.Controller, now: int)
    requires FixedController.Inv(c)
    ensures FixedController.Inv(FixedController.Update(c, now))
  {
  }

  /** An update keeps the crossing total equal to the sum of the per-type counters. */
  lemma UpdateKeepsCounts(x: Intersection, now: int, draws: PerSide<SpawnDraw>)
    requires x.signals.current in x.signals.signals
    requires x.totalCrossed == x.crossedByType.Total()
    ensures Intersections.Update(x, now, draws).totalCrossed == Intersections.Update(x, now, draws).crossedByType.Total()
  {
    var moved := SpawnAndMove(x.(signals := FixedController.Update(x.signals, now)), draws);
    RemoveAllCounts(moved, SideOrder);
  }

  /** Every update keeps the invariant: the controller's invariant holds, every queue stays
      within capacity with only vehicles spawned on its side, no crossed vehicle remains
      after the removal pass, and the crossing total matches the per-type counters. */
  lemma UpdatePreservesInv(x: Intersection, now: int, draws: PerSide<SpawnDraw>)
    requires Inv(x)
    ensures Inv(Intersections.Update(x, now, draws))
  {
    FixedPreservesInv(x.signals, now);
    UpdateKeepsCounts(x, now, draws);
    forall s: Side ensures LaneOk(Intersections.Update(x, now, draws).queues.Get(s), s) {
      UpdateKeepsLane(x, now, draws, s);
    }
  }

  /** The three counting queries agree: the total is the number of vehicles listed by
      `get_all_vehicles` and the sum of the per-side counts. */
  lemma CountsAgree(x: Intersection)
    ensures TotalVehicleCount(x) == |AllVehicles(x)|
    ensures TotalVehicleCount(x) == VehicleCount(x, "NORTH").value + VehicleCount(x, "SOUTH").value
                                    + VehicleCount(x, "EAST").value + VehicleCount(x, "WEST").value
  {
    ParseName(North);
    ParseName(South);
    ParseName(East);
    ParseName(West);
  }
}

=== FILE: options.dfy ===
/** Optional values and error-carrying results shared by the whole model.
    Python's `None` becomes `None`, and a raised exception becomes `Failure`. */
module Options {

  datatype Option<+T> = None | Some(value: T) {

    /** The wrapped value, or `default` when there is none (Python's `dict.get(k, default)`). */
    function GetOr(default: T): T {
      match this
      case Some(v) => v
      case None => default
    }
  }

  datatype Result<+R, +E> = Success(value: R) | Failure(error: E)
}

=== FILE: sides.dfy ===
/** The four approaches of the intersection and their textual names. */
module Sides {
  import opened Options

  datatype Side = North | East | South | West

  /** The name the program uses for a side (the keys of its dictionaries). */
  function Name(s: Side): string {
    match s
    case North => "NORTH"
    case East => "EAST"
    case South => "SOUTH"
    case West => "WEST"
  }

  /** Reads a side name; any other string is an unknown side. */
  function Parse(name: string): (r: Option<Side>)
    ensures r.Some? ==> Name(r.value) == name
    ensures r.None? ==> forall s: Side :: Name(s) != name
  {
    if name == "NORTH" then Some(North)
    else if name == "EAST" then Some(East)
    else if name == "SOUTH" then Some(South)
    else if name == "WEST" then Some(West)
    else None
  }

  /** Every side name reads back as that side, so names are distinct. */
  lemma ParseName(s: Side)
    ensures Parse(Name(s)) == Some(s)
  {
  }

  /** `(index + 1) % len(sides)`: the next position of a round-robin over n entries,
      wrapping after the last one. */
  function NextIndex(i: int, n: int): (j: int)
    requires n > 0
    ensures 0 <= j < n
    ensures 0 <= i < n ==> j == if i + 1 < n then i + 1 else 0
  {
    (i + 1) % n
  }
}

=== FILE: traffic_generator.dfy ===
/** Random traffic generation (TrafficGenerator): capacity-bounded spawning of a vehicle at
    the back of a queue.  The `random.random()` results and the other draws are inputs. */
module TrafficGenerator {
  import opened Options
  import opened Sides
  import opened Vehicles
  import Draws

  /** Probability of a spawn per side and update. */
  const SpawnRate: real := 0.4
  /** Longest queue the generator adds to. */
  const MaxVehiclesPerSide: int := 15

  /** The vehicle types and their weights, in the configuration's order. */
  const VehicleTypes: seq<VehicleType> := [Car, Truck, Bus]
  const Probabilities: seq<real> := [0.6, 0.25, 0.15]

  /** The draws one `generate_vehicle` call may consume: `spawn` for the spawn test,
      `kind` for the type choice, `turn` for the turn choice, and the plate attempts. */
  datatype SpawnDraw = SpawnDraw(spawn: real, kind: real, turn: nat, plates: seq<PlateDraw>)

  /** `should_generate_vehicle`, given the value of `random.random()`. */
  predicate ShouldGenerate(u: real) {
    u < SpawnRate
  }

  /** `choose_vehicle_type`, given the value of `random.random()` that `random.choices`
      draws: for u in [0, 1), CAR on [0, 0.6), TRUCK on [0.6, 0.85), BUS on [0.85, 1). */
  function ChooseType(u: real): (t: VehicleType)
    ensures 0.0 <= u < 1.0 ==>
      && (t == Car <==> u < 0.6)
      && (t == Truck <==> 0.6 <= u < 0.85)
      && (t == Bus <==> 0.85 <= u)
  {
    VehicleTypes[Draws.WeightedIndex(Probabilities, u)]
  }

  /** `generate_vehicle(side, count)`: nothing when the queue is full (tested before any
      draw) or the spawn draw fails; otherwise a new vehicle at the back of the queue with
      a fresh plate.  The used-plate set is threaded through explicitly. */
  function GenerateVehicle(side: Side, count: int, d: SpawnDraw, used: set<string>): (r: Option<(Vehicle, set<string>)>)
    ensures count >= MaxVehiclesPerSide ==> r.None?
    ensures !ShouldGenerate(d.spawn) ==> r.None?
    ensures r.Some? <==> count < MaxVehiclesPerSide && ShouldGenerate(d.spawn) && GeneratePlate(d.plates, used).Some?
    ensures r.Some? ==>
      var (v, used') := r.value;
      && v.side == side && v.originalSide == side && v.position == count
      && v.vtype == ChooseType(d.kind) && v.turn == ChooseTurn(d.turn)
      && !v.crossed && !v.crossedSignal && !v.isTurning
      && v.id !in used && used' == used + {v.id}
  {
    if count >= MaxVehiclesPerSide then None
    else if !ShouldGenerate(d.spawn) then None
    else
      var vtype := ChooseType(d.kind);
      match GeneratePlate(d.plates, used)
      case None => None
      case Some((plate, used')) =>
        Some((NewVehicle(side, count, vtype, plate, ChooseTurn(d.turn), DefaultWindow), used'))
  }
}

=== FILE: utils.dfy ===
/** The helper formulas of the detection system's utility module: a weighted traffic
    density over a counts dictionary, and a green time that grows by two seconds per
    vehicle up to a cap. */
module Utils {
  import opened Options

  /** Weights used when the caller passes none. */
  const DefaultWeights: map<string, real> := map["cars" := 1.0, "trucks" := 2.0, "bikes" := 0.5]

  /** Default bounds of `calculate_green_time`. */
  const DefaultMinTime: int := 5
  const DefaultMaxTime: int := 60

  /** A counts dictionary as the sequence of its items, in iteration order. */
  type CountItems = seq<(string, int)>

  /** The count recorded under `key`, or 0 when the key is absent. */
  function CountFor(counts: CountItems, key: string): int {
    if |counts| == 0 then 0
    else if counts[0].0 == key then counts[0].1
    else CountFor(counts[1..], key)
  }

  /** A dictionary's items have distinct keys. */
  predicate DistinctKeys(counts: CountItems) {
    forall i, j :: 0 <= i < j < |counts| ==> counts[i].0 != counts[j].0
  }

  /** The sum of count times weight over the items whose key has a weight. */
  function DensityWith(counts: CountItems, weights: map<string, real>): real
  {
    if |counts| == 0 then 0.0
    else
      var (kind, count) := counts[0];
      (if kind in weights then count as real * weights[kind] else 0.0) + DensityWith(counts[1..], weights)
  }

  /** Non-negative counts and weights give a non-negative density. */
  lemma {:induction false} DensityNonNegative(counts: CountItems, w: map<string, real>)
    ensures (forall i :: 0 <= i < |counts| ==> counts[i].1 >= 0) && (forall k :: k in w ==> w[k] >= 0.0)
            ==> DensityWith(counts, w) >= 0.0
  {
    if |counts| > 0 {
      DensityNonNegative(counts[1..], w);
      assert forall i :: 0 <= i < |counts[1..]| ==> counts[1..][i] == counts[i + 1];
    }
  }

  /** A key absent from the items counts as zero. */
  lemma {:induction false} AbsentKey(counts: CountItems, key: string)
    requires forall i :: 0 <= i < |counts| ==> counts[i].0 != key
    ensures CountFor(counts, key) == 0
  {
    if |counts| > 0 {
      AbsentKey(counts[1..], key);
    }
  }

  /** Under the default weights the density of a dictionary is cars + 2 * trucks +
      bikes / 2, absent keys counting as zero and other keys ignored. */
  lemma {:induction false} DefaultDensity(counts: CountItems)
    ensures DistinctKeys(counts) ==>
      DensityWith(counts, DefaultWeights) ==
        1.0 * CountFor(counts, "cars") as real + 2.0 * CountFor(counts, "trucks") as real
        + 0.5 * CountFor(counts, "bikes") as real
  {
    if |counts| > 0 && DistinctKeys(counts) {
      var rest := counts[1..];
      assert DistinctKeys(rest) by {
        forall i, j | 0 <= i < j < |rest| ensures rest[i].0 != rest[j].0 {
          assert rest[i] == counts[i + 1] && rest[j] == counts[j + 1];
        }
      }
      assert forall i :: 0 <= i < |rest| ==> rest[i].0 != counts[0].0 by {
        forall i | 0 <= i < |rest| ensures rest[i].0 != counts[0].0 {
          assert rest[i] == counts[i + 1];
        }
      }
      AbsentKey(rest, counts[0].0);
      DefaultDensity(rest);
    }
  }

  /** `calculate_traffic_density`: without weights, cars count 1, trucks 2 and bikes one
      half, every other key nothing; with weights, each key counts its weight. */
  function TrafficDensity(counts: CountItems, weights: Option<map<string, real>>): (d: real)
    ensures weights.None? && DistinctKeys(counts) ==>
      d == 1.0 * CountFor(counts, "cars") as real + 2.0 * CountFor(counts, "trucks") as real
           + 0.5 * CountFor(counts, "bikes") as real
    ensures weights.Some? ==> d == DensityWith(counts, weights.value)
    ensures (forall i :: 0 <= i < |counts| ==> counts[i].1 >= 0)
            && (weights.Some? ==> forall k :: k in weights.value ==> weights.value[k] >= 0.0)
            ==> d >= 0.0
  {
    DefaultDensity(counts);
    DensityNonNegative(counts, weights.GetOr(DefaultWeights));
    DensityWith(counts, weights.GetOr(DefaultWeights))
  }

  /** `calculate_green_time`: the minimum for no vehicles, otherwise the minimum plus two
      seconds per vehicle, capped at the maximum. */
  function GreenTime(vehicleCount: int, minTime: int, maxTime: int): (r: int)
    ensures vehicleCount == 0 ==> r == minTime
    ensures vehicleCount != 0 ==>
      && r <= maxTime && r <= minTime + 2 * vehicleCount
      && (r == maxTime || r == minTime + 2 * vehicleCount)
  {
    if vehicleCount == 0 then minTime
    else
      var calculated := minTime + vehicleCount * 2;
      if calculated < maxTime then calculated else maxTime
  }
}

/** Properties of the utility formulas. */
module UtilsProperties {
  import opened Options
  import opened Utils

  /** The density of consecutive stretches of items adds up. */
  lemma {:induction false} DensityAppend(a: CountItems, b: CountItems, w: map<string, real>)
    ensures DensityWith(a + b, w) == DensityWith(a, w) + DensityWith(b, w)
  {
    if |a| > 0 {
      assert (a + b)[1..] == a[1..] + b;
      DensityAppend(a[1..], b, w);
    } else {
      assert a + b == b;
    }
  }

  /** An item whose key has no weight contributes nothing, wherever it stands. */
  lemma UnknownKeyIgnored(counts: CountItems, i: int, w: map<string, real>)
    requires 0 <= i < |counts| && counts[i].0 !in w
    ensures DensityWith(counts[..i] + counts[i + 1..], w) == DensityWith(counts, w)
  {
    assert counts == counts[..i] + ([counts[i]] + counts[i + 1..]);
    DensityAppend(counts[..i], [counts[i]] + counts[i + 1..], w);
    DensityAppend([counts[i]], counts[i + 1..], w);
    DensityAppend(counts[..i], counts[i + 1..], w);
  }

  /** The test's dictionary: 10 cars, 2 trucks and 5 bikes give a density of 16.5. */
  lemma ScenarioDensity()
    ensures TrafficDensity([("cars", 10), ("trucks", 2), ("bikes", 5)], None) == 16.5
  {
    var counts := [("cars", 10), ("trucks", 2), ("bikes", 5)];
    assert counts[1..] == [("trucks", 2), ("bikes", 5)];
    assert counts[1..][1..] == [("bikes", 5)];
  }

  /** With ordered bounds and a non-negative count the green time lies within the bounds. */
  lemma GreenTimeWithinBounds(vehicleCount: int, minTime: int, maxTime: int)
    requires 0 <= vehicleCount && minTime <= maxTime
    ensures minTime <= GreenTime(vehicleCount, minTime, maxTime) <= maxTime
  {
  }

  /** With ordered bounds more vehicles never shorten the green time. */
  lemma GreenTimeMonotone(a: int, b: int, minTime: int, maxTime: int)
    requires a <= b && minTime <= maxTime
    ensures GreenTime(a, minTime, maxTime) <= GreenTime(b, minTime, maxTime)
  {
  }

  /** The tested values under the default bounds: no vehicles give 5, ten give 25, and a
      hundred are capped at 60. */
  lemma ScenarioGreenTimes()
    ensures GreenTime(0, DefaultMinTime, DefaultMaxTime) == 5
    ensures GreenTime(10, DefaultMinTime, DefaultMaxTime) == 25
    ensures GreenTime(100, DefaultMinTime, DefaultMaxTime) == 60
  {
  }
}

=== FILE: vehicle.dfy ===
/** A simulated vehicle (Vehicle): its placement in the queue of its approach, its integer
    pixel motion with a single turn at the centre of the intersection, the monotone
    `crossed` and `crossedSignal` flags, the stop decision, and its unique licence plate.

    All geometry is integer pixel arithmetic relative to the centre of the window. */
module Vehicles {
  import opened Options
  import opened Sides
  import Draws

  datatype VehicleType = Car | Truck | Bus

  /** The turn chosen at construction: 0 straight, 1 left, 2 right in the program. */
  datatype Turn = Straight | Left | Right

  datatype Window = Window(width: int, height: int) {
    /** Integer centre (Python's `//` by 2 floors, as Dafny's `/` does for a positive divisor). */
    function CenterX(): int { width / 2 }
    function CenterY(): int { height / 2 }
  }

  const DefaultWindow: Window := Window(1920, 1080)

  /** Pixels per move (the simulator's vehicle speed). */
  const VehicleSpeed: int := 3
  /** Distance between consecutive queue positions. */
  const Spacing: int := 60
  /** Sideways offset of a lane from the centre line. */
  const LaneOffset: int := 80
  /** Distance from the centre of the front of a queue. */
  const QueueStart: int := 300
  /** Distance past the centre beyond which a vehicle has left the intersection. */
  const CrossingDistance: int := 400
  /** Distance of the signal line from the centre. */
  const StopDistance: int := 150
  /** Extra margin before the signal line within which a vehicle stops on red. */
  const StopMargin: int := 10
  /** Half-width of the centre zone in which the turn is taken. */
  const CenterThreshold: int := 30
  /** Minimum gap kept to every vehicle ahead. */
  const MinGap: int := 50

  datatype Vehicle = Vehicle(
    id: string,
    vtype: VehicleType,
    side: Side,
    originalSide: Side,
    position: int,
    x: int,
    y: int,
    speed: int,
    turn: Turn,
    isTurning: bool,
    crossed: bool,
    crossedSignal: bool)

  /** The turn the draw of `random.choice([0, 0, 0, 1, 2])` selects. */
  function ChooseTurn(draw: nat): (t: Turn)
    ensures t == Straight <==> draw % 5 < 3
    ensures t == Left <==> draw % 5 == 3
  {
    Draws.Choice([Straight, Straight, Straight, Left, Right], draw)
  }

  /** Coordinates of queue position `position` on the approach `side`: 300 + 60 * position
      before the centre on the approach axis, offset 80 sideways into its lane. */
  function Place(side: Side, position: int, w: Window): (p: (int, int))
    ensures side == North ==> p == (w.CenterX() - LaneOffset, w.CenterY() - QueueStart - position * Spacing)
    ensures side == South ==> p == (w.CenterX() + LaneOffset, w.CenterY() + QueueStart + position * Spacing)
    ensures side == East ==> p == (w.CenterX() + QueueStart + position * Spacing, w.CenterY() + LaneOffset)
    ensures side == West ==> p == (w.CenterX() - QueueStart - position * Spacing, w.CenterY() - LaneOffset)
  {
    var cx, cy := w.CenterX(), w.CenterY();
    match side
    case North => (cx - LaneOffset, cy - QueueStart - position * Spacing)
    case South => (cx + LaneOffset, cy + QueueStart + position * Spacing)
    case East => (cx + QueueStart + position * Spacing, cy + LaneOffset)
    case West => (cx - QueueStart - position * Spacing, cy - LaneOffset)
  }

  /** The program's constructor (with the given plate and turn), then the re-placement the
      intersection applies for its window. */
  function NewVehicle(side: Side, position: int, vtype: VehicleType, plate: string, turn: Turn, w: Window): (v: Vehicle)
    ensures v.side == side && v.originalSide == side && v.position == position && v.vtype == vtype
    ensures v.id == plate && v.turn == turn && v.speed == VehicleSpeed
    ensures (v.x, v.y) == Place(side, position, w)
    ensures !v.isTurning && !v.crossed && !v.crossedSignal
  {
    var (x, y) := Place(side, position, w);
    Vehicle(plate, vtype, side, side, position, x, y, VehicleSpeed, turn, false, false, false)
  }

  /** `update_position_for_screen`: recomputes the coordinates from the current side. */
  function Replace(v: Vehicle, w: Window): (r: Vehicle)
    ensures (r.x, r.y) == Place(v.side, v.position, w)
    ensures r == v.(x := r.x, y := r.y)
  {
    var (x, y) := Place(v.side, v.position, w);
    v.(x := x, y := y)
  }

  /** Left turn as the program's table rotates sides. */
  function TurnLeft(s: Side): Side {
    match s
    case North => West
    case West => South
    case South => East
    case East => North
  }

  /** Right turn as the program's table rotates sides. */
  function TurnRight(s: Side): Side {
    match s
    case North => East
    case East => South
    case South => West
    case West => North
  }

  /** `_execute_turn` on the current side. */
  function TurnSide(s: Side, t: Turn): Side {
    match t
    case Straight => s
    case Left => TurnLeft(s)
    case Right => TurnRight(s)
  }

  /** `_at_intersection_center`: within 30 pixels of the centre on the approach axis. */
  predicate AtCenter(v: Vehicle, cx: int, cy: int) {
    match v.originalSide
    case North => -CenterThreshold < v.y - cy < CenterThreshold
    case South => -CenterThreshold < v.y - cy < CenterThreshold
    case East => -CenterThreshold < v.x - cx < CenterThreshold
    case West => -CenterThreshold < v.x - cx < CenterThreshold
  }

  /** The exit test of `_check_if_crossed` on the current side's axis. */
  predicate BeyondExit(v: Vehicle, w: Window) {
    match v.side
    case North => v.y > w.CenterY() + CrossingDistance
    case South => v.y < w.CenterY() - CrossingDistance
    case East => v.x < w.CenterX() - CrossingDistance
    case West => v.x > w.CenterX() + CrossingDistance
  }

  /** The signal-line test of `_check_if_crossed_signal` on the approach axis. */
  predicate PastSignalLine(v: Vehicle, w: Window) {
    match v.originalSide
    case North => v.y > w.CenterY() - StopDistance
    case South => v.y < w.CenterY() + StopDistance
    case East => v.x < w.CenterX() + StopDistance
    case West => v.x > w.CenterX() - StopDistance
  }

  /** The turn latch of `move`: the turn is taken the first time the vehicle is at the centre. */
  function Steer(v: Vehicle, w: Window): (r: Vehicle)
    ensures r == v.(isTurning := r.isTurning, side := r.side)
    ensures r.isTurning == (v.isTurning || AtCenter(v, w.CenterX(), w.CenterY()))
    ensures r.side == (if r.isTurning && !v.isTurning then TurnSide(v.side, v.turn) else v.side)
  {
    if !v.isTurning && AtCenter(v, w.CenterX(), w.CenterY())
    then v.(isTurning := true, side := TurnSide(v.side, v.turn))
    else v
  }

  /** Advance `speed` pixels in the direction of the current side. */
  function Advance(v: Vehicle): (r: Vehicle)
    ensures r == v.(x := r.x, y := r.y)
    ensures v.side == North ==> r.x == v.x && r.y == v.y + v.speed
    ensures v.side == South ==> r.x == v.x && r.y == v.y - v.speed
    ensures v.side == East ==> r.x == v.x - v.speed && r.y == v.y
    ensures v.side == West ==> r.x == v.x + v.speed && r.y == v.y
    ensures (r.x, r.y) == (v.x + v.speed * Heading(v.side).0, v.y + v.speed * Heading(v.side).1)
  {
    match v.side
    case North => v.(y := v.y + v.speed)
    case South => v.(y := v.y - v.speed)
    case East => v.(x := v.x - v.speed)
    case West => v.(x := v.x + v.speed)
  }

  /** `_check_if_crossed` then `_check_if_crossed_signal`: raise each flag whose line has
      been passed; neither is ever lowered. */
  function MarkLines(v: Vehicle, w: Window): (r: Vehicle)
    ensures r == v.(crossed := r.crossed, crossedSignal := r.crossedSignal)
    ensures r.crossed <==> v.crossed || BeyondExit(v, w)
    ensures r.crossedSignal <==> v.crossedSignal || PastSignalLine(v, w)
  {
    var checked := if BeyondExit(v, w) then v.(crossed := true) else v;
    if !checked.crossedSignal && PastSignalLine(checked, w) then checked.(crossedSignal := true) else checked
  }

  /** One move.  A crossed vehicle stays put.  Otherwise the turn is taken once, the first
      time the vehicle is at the centre; the vehicle advances `speed` along its current
      side (NORTH: y up, SOUTH: y down, EAST: x down, WEST: x up); then the crossed and
      signal-line flags are raised if their line has been passed, and never lowered. */
  function Move(v: Vehicle, w: Window): (r: Vehicle)
    ensures v.crossed ==> r == v
    ensures r.id == v.id && r.vtype == v.vtype && r.originalSide == v.originalSide
    ensures r.position == v.position && r.speed == v.speed && r.turn == v.turn
    ensures !v.crossed ==>
      && r.isTurning == (v.isTurning || AtCenter(v, w.CenterX(), w.CenterY()))
      && r.side == (if r.isTurning && !v.isTurning then TurnSide(v.side, v.turn) else v.side)
      && (r.side == North ==> r.x == v.x && r.y == v.y + v.speed)
      && (r.side == South ==> r.x == v.x && r.y == v.y - v.speed)
      && (r.side == East ==> r.x == v.x - v.speed && r.y == v.y)
      && (r.side == West ==> r.x == v.x + v.speed && r.y == v.y)
      && (r.crossed <==> BeyondExit(r, w))
      && (r.crossedSignal <==> v.crossedSignal || PastSignalLine(r, w))
  {
    if v.crossed then v
    else
      var moved := Advance(Steer(v, w));
      assert BeyondExit(MarkLines(moved, w), w) == BeyondExit(moved, w);
      assert PastSignalLine(MarkLines(moved, w), w) == PastSignalLine(moved, w);
      MarkLines(moved, w)
  }

  /** The unit step, in screen coordinates (y grows downwards), of a vehicle travelling
      on a side's approach: NORTH moves down, SOUTH up, EAST left and WEST right. */
  function Heading(s: Side): (int, int) {
    match s
    case North => (0, 1)
    case South => (0, -1)
    case East => (-1, 0)
    case West => (1, 0)
  }

  /** `_calculate_distance_to`: how far `other` is ahead along this vehicle's approach
      axis, that is, the offset to `other` projected onto the heading of the side the
      vehicle spawned on. */
  function DistanceTo(v: Vehicle, other: Vehicle): (d: int)
    ensures var (dx, dy) := Heading(v.originalSide);
            d == (other.x - v.x) * dx + (other.y - v.y) * dy
  {
    match v.originalSide
    case North => other.y - v.y
    case South => v.y - other.y
    case East => v.x - other.x
    case West => other.x - v.x
  }

  /** The car-following scan of `should_stop`: some vehicle ahead is closer than the gap. */
  function TooClose(v: Vehicle, ahead: seq<Vehicle>): (r: bool)
    ensures r <==> exists i :: 0 <= i < |ahead| && DistanceTo(v, ahead[i]) < MinGap
  {
    if |ahead| == 0 then false
    else if DistanceTo(v, ahead[0]) < MinGap then true
    else
      var rest := TooClose(v, ahead[1..]);
      assert rest <==> exists i :: 1 <= i < |ahead| && DistanceTo(v, ahead[i]) < MinGap by {
        if rest {
          var i :| 0 <= i < |ahead[1..]| && DistanceTo(v, ahead[1..][i]) < MinGap;
          assert ahead[i + 1] == ahead[1..][i];
        }
        if exists i :: 1 <= i < |ahead| && DistanceTo(v, ahead[i]) < MinGap {
          var i :| 1 <= i < |ahead| && DistanceTo(v, ahead[i]) < MinGap;
          assert ahead[1..][i - 1] == ahead[i];
        }
      }
      rest
  }

  /** Within 10 pixels before the signal line, or past it, on the approach axis. */
  predicate AtStopLine(v: Vehicle, w: Window) {
    match v.originalSide
    case North => v.y >= w.CenterY() - StopDistance - StopMargin
    case South => v.y <= w.CenterY() + StopDistance + StopMargin
    case East => v.x <= w.CenterX() + StopDistance + StopMargin
    case West => v.x >= w.CenterX() - StopDistance - StopMargin
  }

  /** `should_stop`: never once past the signal line; otherwise stop behind a vehicle closer
      than the minimum gap whatever the signal, and on red at the stop line. */
  function ShouldStop(v: Vehicle, signalIsRed: bool, ahead: seq<Vehicle>, w: Window): (r: bool)
    ensures r <==> !v.crossedSignal
                   && ((exists i :: 0 <= i < |ahead| && DistanceTo(v, ahead[i]) < MinGap)
                       || (signalIsRed && AtStopLine(v, w)))
  {
    if v.crossedSignal then false
    else if TooClose(v, ahead) then true
    else if !signalIsRed then false
    else AtStopLine(v, w)
  }

  /** Inputs of one attempt of `generate_license_plate`: the draws of its two
      `random.choice` and two `random.randint` calls. */
  datatype PlateDraw = PlateDraw(state: nat, district: nat, letter: nat, number: nat)

  const PlateStates: seq<string> := ["UP", "DL", "MH", "KA", "TN", "HR", "RJ", "GJ", "MP", "WB"]
  const PlateLetters: string := "ABCDEFGHIJKLMNOPQRSTUVWXYZ"

  /** Decimal notation of a natural number, as an f-string writes it. */
  function Decimal(n: nat): (s: string)
    ensures |s| > 0
    ensures forall i :: 0 <= i < |s| ==> '0' <= s[i] <= '9'
  {
    var d := ['0' + (n % 10) as char];
    if n < 10 then d else Decimal(n / 10) + d
  }

  /** The plate one attempt writes: state code, district 10..99, letter, number 1000..9999. */
  function PlateText(d: PlateDraw): string {
    Draws.Choice(PlateStates, d.state)
      + Decimal(Draws.RandInt(10, 99, d.district))
      + [Draws.Choice(PlateLetters, d.letter)]
      + Decimal(Draws.RandInt(1000, 9999, d.number))
  }

  /** `generate_license_plate` over the attempts `draws`: the first attempt whose plate is
      not yet used, together with the used set extended by it.  The program retries until
      it succeeds; when the given attempts run out the model reports None. */
  function GeneratePlate(draws: seq<PlateDraw>, used: set<string>): (r: Option<(string, set<string>)>)
    ensures r.Some? ==> r.value.0 !in used && r.value.1 == used + {r.value.0}
    ensures r.Some? ==> exists i :: 0 <= i < |draws| && r.value.0 == PlateText(draws[i])
                          && forall j :: 0 <= j < i ==> PlateText(draws[j]) in used
    ensures r.None? <==> forall i :: 0 <= i < |draws| ==> PlateText(draws[i]) in used
  {
    if |draws| == 0 then None
    else
      var plate := PlateText(draws[0]);
      if plate !in used then Some((plate, used + {plate}))
      else
        var r := GeneratePlate(draws[1..], used);
        assert r.Some? ==> exists i :: 0 <= i < |draws| && r.value.0 == PlateText(draws[i])
                             && forall j :: 0 <= j < i ==> PlateText(draws[j]) in used by {
          if r.Some? {
            var i :| 0 <= i < |draws[1..]| && r.value.0 == PlateText(draws[1..][i])
                     && forall j :: 0 <= j < i ==> PlateText(draws[1..][j]) in used;
            assert draws[i + 1] == draws[1..][i];
            forall j | 0 <= j < i + 1 ensures PlateText(draws[j]) in used {
              if j > 0 { assert draws[j] == draws[1..][j - 1]; }
            }
          }
        }
        assert r.None? ==> forall i :: 0 <= i < |draws| ==> PlateText(draws[i]) in used by {
          if r.None? {
            forall i | 0 <= i < |draws| ensures PlateText(draws[i]) in used {
              if i > 0 { assert draws[i] == draws[1..][i - 1]; }
            }
          }
        }
        r
  }
}

=== FILE: vehicle_detector.dfy ===
/** The per-box tally of the camera-based detector (VehicleDetector.detect_vehicles).
    The object detector itself is not modelled: a frame carries the boxes the detector
    reports for it, each a class id and a confidence.  Boxes below the confidence threshold
    are dropped; cars, trucks or buses, and motorcycles are counted; an emergency class
    raises the emergency flag without being counted; every kept box yields one detection. */
module VehicleDetector {
  import opened Options

  /** Detection settings of the system's configuration. */
  const ConfidenceThreshold: real := 0.4
  const CarClass: int := 2
  const MotorcycleClass: int := 3
  const BusClass: int := 5
  const TruckClass: int := 7
  /** The values of the emergency-class table (ambulance and fire truck share one id). */
  const EmergencyClasses: set<int> := {6}

  /** One reported box: class id and confidence (its coordinates are not modelled). */
  datatype Box = Box(cls: int, conf: real)

  /** A frame: its pixel count and the boxes the detector reports for it. */
  datatype Frame = Frame(size: nat, boxes: seq<Box>)

  /** The type label a kept box is recorded under. */
  datatype Label = CarLabel | TruckBusLabel | MotorcycleLabel | EmergencyLabel

  datatype Detection = Detection(kind: Label, confidence: real)

  /** The result dictionary of `detect_vehicles`. */
  datatype Counts = Counts(
    totalVehicles: nat,
    cars: nat,
    trucks: nat,
    motorcycles: nat,
    emergency: bool,
    detections: seq<Detection>)

  const NoVehicles: Counts := Counts(0, 0, 0, 0, false, [])

  /** The label a box is recorded under, or None when it is dropped: below the threshold,
      or of a class that is neither a vehicle nor an emergency class.  The tests run in
      the program's order: car, truck or bus, motorcycle, emergency. */
  function Classify(b: Box): (r: Option<Label>)
    ensures b.conf < ConfidenceThreshold ==> r.None?
    ensures b.conf >= ConfidenceThreshold ==>
      && (r == Some(CarLabel) <==> b.cls == CarClass)
      && (r == Some(TruckBusLabel) <==> b.cls == TruckClass || b.cls == BusClass)
      && (r == Some(MotorcycleLabel) <==> b.cls == MotorcycleClass)
      && (r == Some(EmergencyLabel) <==> b.cls in EmergencyClasses)
  {
    if b.conf < ConfidenceThreshold then None
    else if b.cls == CarClass then Some(CarLabel)
    else if b.cls in [TruckClass, BusClass] then Some(TruckBusLabel)
    else if b.cls == MotorcycleClass then Some(MotorcycleLabel)
    else if b.cls in EmergencyClasses then Some(EmergencyLabel)
    else None
  }

  /** How many boxes are recorded under `l` (reference definition, over the last box). */
  function CountOf(boxes: seq<Box>, l: Label): (n: nat)
    ensures n <= |boxes|
  {
    if |boxes| == 0 then 0
    else CountOf(boxes[..|boxes| - 1], l) + (if Classify(boxes[|boxes| - 1]) == Some(l) then 1 else 0)
  }

  /** The detections of the kept boxes, in box order (reference definition). */
  function Detections(boxes: seq<Box>): (ds: seq<Detection>)
    ensures |ds| <= |boxes|
  {
    if |boxes| == 0 then []
    else
      var last := boxes[|boxes| - 1];
      Detections(boxes[..|boxes| - 1]) +
        match Classify(last)
        case None => []
        case Some(l) => [Detection(l, last.conf)]
  }

  /** Some box of the sequence is recorded as an emergency. */
  predicate HasEmergency(boxes: seq<Box>) {
    exists i :: 0 <= i < |boxes| && Classify(boxes[i]) == Some(EmergencyLabel)
  }

  /** `detect_vehicles`: nothing for a missing or empty frame; otherwise one pass over the
      boxes, each one classified and tallied. */
  method DetectVehicles(frame: Option<Frame>) returns (r: Counts)
    ensures frame.None? || frame.value.size == 0 ==> r == NoVehicles
    ensures frame.Some? && frame.value.size > 0 ==>
      var boxes := frame.value.boxes;
      && r.cars == CountOf(boxes, CarLabel)
      && r.trucks == CountOf(boxes, TruckBusLabel)
      && r.motorcycles == CountOf(boxes, MotorcycleLabel)
      && r.totalVehicles == r.cars + r.trucks + r.motorcycles
      && (r.emergency <==> HasEmergency(boxes))
      && r.detections == Detections(boxes)
  {
    r := NoVehicles;
    if frame.None? || frame.value.size == 0 {
      return;
    }
    var boxes := frame.value.boxes;
    var i := 0;
    while i < |boxes|
      invariant 0 <= i <= |boxes|
      invariant r.cars == CountOf(boxes[..i], CarLabel)
      invariant r.trucks == CountOf(boxes[..i], TruckBusLabel)
      invariant r.motorcycles == CountOf(boxes[..i], MotorcycleLabel)
      invariant r.totalVehicles == r.cars + r.trucks + r.motorcycles
      invariant r.emergency <==> HasEmergency(boxes[..i])
      invariant r.detections == Detections(boxes[..i])
    {
      var b := boxes[i];
      assert boxes[..i + 1][..i] == boxes[..i];
      assert HasEmergency(boxes[..i + 1]) <==> HasEmergency(boxes[..i]) || Classify(b) == Some(EmergencyLabel) by {
        if Classify(b) == Some(EmergencyLabel) {
          assert boxes[..i + 1][i] == b;
        }
        if HasEmergency(boxes[..i + 1]) {
          var k :| 0 <= k < i + 1 && Classify(boxes[..i + 1][k]) == Some(EmergencyLabel);
          if k < i {
            assert boxes[..i][k] == boxes[..i + 1][k];
          }
        }
        if HasEmergency(boxes[..i]) {
          var k :| 0 <= k < i && Classify(boxes[..i][k]) == Some(EmergencyLabel);
          assert boxes[..i + 1][k] == boxes[..i][k];
        }
      }
      if b.conf >= ConfidenceThreshold {
        if b.cls == CarClass {
          r := r.(cars := r.cars + 1, totalVehicles := r.totalVehicles + 1,
                  detections := r.detections + [Detection(CarLabel, b.conf)]);
        } else if b.cls in [TruckClass, BusClass] {
          r := r.(trucks := r.trucks + 1, totalVehicles := r.totalVehicles + 1,
                  detections := r.detections + [Detection(TruckBusLabel, b.conf)]);
        } else if b.cls == MotorcycleClass {
          r := r.(motorcycles := r.motorcycles + 1, totalVehicles := r.totalVehicles + 1,
                  detections := r.detections + [Detection(MotorcycleLabel, b.conf)]);
        } else if b.cls in EmergencyClasses {
          r := r.(emergency := true, detections := r.detections + [Detection(EmergencyLabel, b.conf)]);
        }
      }
      i := i + 1;
    }
    assert boxes[..|boxes|] == boxes;
  }
}

/** Properties of the detector's tally. */
module DetectorProperties {
  import opened Options
  import opened VehicleDetector

  /** Tallies of consecutive stretches of boxes add up. */
  lemma {:induction false} CountOfAppend(a: seq<Box>, b: seq<Box>, l: Label)
    ensures CountOf(a + b, l) == CountOf(a, l) + CountOf(b, l)
    decreases |b|
  {
    if |b| > 0 {
      assert (a + b)[..|a + b| - 1] == a + b[..|b| - 1];
      CountOfAppend(a, b[..|b| - 1], l);
    } else {
      assert a + b == a;
    }
  }

  /** Detections of consecutive stretches of boxes concatenate. */
  lemma {:induction false} DetectionsAppend(a: seq<Box>, b: seq<Box>)
    ensures Detections(a + b) == Detections(a) + Detections(b)
    decreases |b|
  {
    if |b| > 0 {
      assert (a + b)[..|a + b| - 1] == a + b[..|b| - 1];
      DetectionsAppend(a, b[..|b| - 1]);
    } else {
      assert a + b == a;
    }
  }

  /** Exactly one detection per kept box: the counted vehicles and the emergency boxes. */
  lemma {:induction false} OneDetectionPerKeptBox(boxes: seq<Box>)
    ensures |Detections(boxes)| == CountOf(boxes, CarLabel) + CountOf(boxes, TruckBusLabel)
                                   + CountOf(boxes, MotorcycleLabel) + CountOf(boxes, EmergencyLabel)
  {
    if |boxes| > 0 {
      OneDetectionPerKeptBox(boxes[..|boxes| - 1]);
    }
  }

  /** A box below the confidence threshold contributes nothing, wherever it stands. */
  lemma BelowThresholdIgnored(boxes: seq<Box>, i: int, l: Label)
    requires 0 <= i < |boxes| && boxes[i].conf < ConfidenceThreshold
    ensures var without := boxes[..i] + boxes[i + 1..];
            && CountOf(without, l) == CountOf(boxes, l)
            && Detections(without) == Detections(boxes)
  {
    assert boxes == boxes[..i] + [boxes[i]] + boxes[i + 1..];
    CountOfAppend(boxes[..i] + [boxes[i]], boxes[i + 1..], l);
    CountOfAppend(boxes[..i], [boxes[i]], l);
    CountOfAppend(boxes[..i], boxes[i + 1..], l);
    DetectionsAppend(boxes[..i] + [boxes[i]], boxes[i + 1..]);
    DetectionsAppend(boxes[..i], [boxes[i]]);
    DetectionsAppend(boxes[..i], boxes[i + 1..]);
    assert [boxes[i]][..0] == [];
  }

  /** A kept box of a class the program does not know is skipped like a weak one. */
  lemma UnknownClassIgnored(b: Box)
    requires b.cls !in {CarClass, TruckClass, BusClass, MotorcycleClass} && b.cls !in EmergencyClasses
    ensures Classify(b).None?
  {
  }

  /** Counts of the two boxes the worked example classifies: a confident car and a
      confident emergency vehicle give one car, no other vehicle, the emergency flag and
      two detections. */
  lemma ScenarioCarAndAmbulance()
    ensures var boxes := [Box(2, 0.9), Box(6, 0.5), Box(7, 0.3)];
            && CountOf(boxes, CarLabel) == 1 && CountOf(boxes, TruckBusLabel) == 0
            && HasEmergency(boxes)
            && Detections(boxes) == [Detection(CarLabel, 0.9), Detection(EmergencyLabel, 0.5)]
  {
    var boxes := [Box(2, 0.9), Box(6, 0.5), Box(7, 0.3)];
    assert Classify(boxes[1]) == Some(EmergencyLabel);
    assert boxes[..2] == [Box(2, 0.9), Box(6, 0.5)];
    assert boxes[..2][..1] == [Box(2, 0.9)];
  }
}

=== FILE: vehicle_properties.dfy ===
/** Properties of the vehicle model: the turn tables, the one-time turn, monotone flags
    over any number of moves, the queue spacing, and the licence-plate format. */
module VehicleProperties {
  import opened Sides
  import opened Vehicles

  /** Left and right turns undo each other, and each is a rotation through all four sides. */
  lemma TurnsAreInverse(s: Side)
    ensures TurnLeft(TurnRight(s)) == s && TurnRight(TurnLeft(s)) == s
    ensures TurnLeft(TurnLeft(TurnLeft(TurnLeft(s)))) == s
    ensures {s, TurnLeft(s), TurnLeft(TurnLeft(s)), TurnLeft(TurnLeft(TurnLeft(s)))} == {North, East, South, West}
    ensures TurnSide(s, Straight) == s && TurnSide(s, Left) != s && TurnSide(s, Right) != s
  {
  }

  /** `k` moves in a row. */
  function Moves(v: Vehicle, k: nat, w: Window): (r: Vehicle)
    ensures r.id == v.id && r.vtype == v.vtype && r.originalSide == v.originalSide
    decreases k
  {
    if k == 0 then v else Moves(Move(v, w), k - 1, w)
  }

  /** Once the turn has been taken the side is fixed: the turn happens at most once. */
  lemma {:induction false} TurnLatched(v: Vehicle, k: nat, w: Window)
    requires v.isTurning
    ensures Moves(v, k, w).isTurning && Moves(v, k, w).side == v.side
    decreases k
  {
    if k > 0 {
      TurnLatched(Move(v, w), k - 1, w);
    }
  }

  /** The side changes at most once over any run of moves, and only to the turned side. */
  lemma {:induction false} SideChangesOnlyByTheTurn(v: Vehicle, k: nat, w: Window)
    requires !v.isTurning
    ensures var r := Moves(v, k, w);
            r.side == v.side || (r.isTurning && r.side == TurnSide(v.side, v.turn))
    decreases k
  {
    if k > 0 {
      var m := Move(v, w);
      if m.isTurning && !v.isTurning {
        TurnLatched(m, k - 1, w);
      } else {
        SideChangesOnlyByTheTurn(m, k - 1, w);
      }
    }
  }

  /** `crossed` and `crossedSignal` are never reset, and a crossed vehicle no longer moves. */
  lemma {:induction false} FlagsMonotone(v: Vehicle, k: nat, w: Window)
    ensures v.crossed ==> Moves(v, k, w) == v
    ensures v.crossedSignal ==> Moves(v, k, w).crossedSignal
    ensures v.crossed ==> Moves(v, k, w).crossed
    decreases k
  {
    if k > 0 {
      FlagsMonotone(Move(v, w), k - 1, w);
    }
  }

  /** Queue positions p < q of one approach are placed exactly 60 * (q - p) apart along the
      approach axis, so a freshly placed queue keeps more than the minimum gap. */
  lemma QueueSpacing(side: Side, p: int, q: int, w: Window, a: Vehicle, b: Vehicle)
    requires a.originalSide == side && b.originalSide == side
    requires (a.x, a.y) == Place(side, p, w) && (b.x, b.y) == Place(side, q, w)
    requires p < q
    ensures DistanceTo(b, a) == Spacing * (q - p)
    ensures DistanceTo(b, a) >= MinGap
  {
  }

  /** Two vehicles of one approach measure the same gap between them with opposite signs:
      exactly one of them sees the other ahead. */
  lemma DistanceAntisymmetric(a: Vehicle, b: Vehicle)
    requires a.originalSide == b.originalSide
    ensures DistanceTo(a, b) == -DistanceTo(b, a)
  {
  }

  /** Before its turn a vehicle travels along its own approach, so one move closes the
      distance to any other vehicle by exactly its speed. */
  lemma AdvanceClosesDistance(v: Vehicle, other: Vehicle)
    requires v.side == v.originalSide
    ensures DistanceTo(Advance(v), other) == DistanceTo(v, other) - v.speed
  {
  }

  /** Value of a string of decimal digits. */
  function DigitsValue(s: string): nat
    requires forall i :: 0 <= i < |s| ==> '0' <= s[i] <= '9'
  {
    if |s| == 0 then 0 else DigitsValue(s[..|s| - 1]) * 10 + ((s[|s| - 1] - '0') as int)
  }

  /** `Decimal` writes the number back: reading its digits gives the number. */
  lemma {:induction false} DecimalRoundTrip(n: nat)
    ensures DigitsValue(Decimal(n)) == n
  {
    var s := Decimal(n);
    assert s[..|s| - 1] == if n < 10 then [] else Decimal(n / 10);
    if n >= 10 {
      DecimalRoundTrip(n / 10);
    }
    DivTen(n);
  }

  lemma DivTen(n: nat)
    ensures n == (n / 10) * 10 + n % 10
  {
  }

  /** Two-digit and four-digit numbers are written with two and four digits. */
  lemma DecimalWidth(n: nat)
    ensures 10 <= n <= 99 ==> |Decimal(n)| == 2
    ensures 1000 <= n <= 9999 ==> |Decimal(n)| == 4
  {
    if 10 <= n <= 99 {
      assert |Decimal(n / 10)| == 1;
    }
    if 1000 <= n <= 9999 {
      assert 100 <= n / 10 <= 999 && 10 <= n / 100 <= 99 && 1 <= n / 1000 <= 9;
      assert n / 10 / 10 == n / 100 && n / 100 / 10 == n / 1000;
      assert |Decimal(n / 1000)| == 1;
      assert |Decimal(n / 100)| == 2;
      assert |Decimal(n / 10)| == 3;
    }
  }

  /** Every plate has nine characters: a state code from the list, two district digits, a
      capital letter and four digits. */
  lemma PlateShape(d: PlateDraw)
    ensures var p := PlateText(d);
            && |p| == 9
            && p[..2] in PlateStates
            && 'A' <= p[4] <= 'Z'
            && (forall i :: 2 <= i < 4 || 5 <= i < 9 ==> '0' <= p[i] <= '9')
  {
    var st := Draws.Choice(PlateStates, d.state);
    var district := Draws.RandInt(10, 99, d.district);
    var number := Draws.RandInt(1000, 9999, d.number);
    DecimalWidth(district);
    DecimalWidth(number);
    assert |st| == 2;
    var p := PlateText(d);
    assert p[..2] == st;
  }
}
